=== FILE: README.md ===
# QuickerRoute probe engine in Dafny

A model of the probe/response engine of QuickerRoute, a parallel ICMP
traceroute. The engine fires one Echo Request for every TTL from 1 to
MAX_HOPS (30) at once. It then listens for responses. A Time Exceeded
quoting one of its probes is attributed to the hop named by the quoted
sequence number. A short Echo-shaped datagram carrying its identifier marks
the destination hop (`pingReplyHop`). On each timeout, hops that have not
answered and still have probes left are sent again. Their next deadline is
estimated from the neighbouring hops' round-trip times (the "ballpark").

The hop table (`statusParameters hopInfo[MAX_HOPS + 1]`) is a `seq<Hop>`
of immutable records. Every part of the engine is a pure function over it:

| module | file | models |
|---|---|---|
| `Consts` | consts.dfy | the constants of QuickerRoute.h, and the C integer widths as subset types with explicit truncation |
| `Checksum` | checksum.dfy | `ip_checksum` as written (one carry fold) and the full RFC 1071 (section 4.1) checksum |
| `Icmp` | icmp.dfy | the 8-byte ICMP header of RFC 792 and the probe that `sendICMPProbe` encodes |
| `Decode` | decode.dfy | how a received datagram is sized, filtered and read in the receive branch |
| `Hops` | hops.dfy | the hop record and table, `initParameters`, and the record update of `sendICMPProbe` |
| `Retransmit` | retransmit.dfy | the timeout branch: candidate hops, ballpark, deadline, and the resend loop |
| `Engine` | engine.dfy | accepting responses, one pass of the listening loop, the loop itself, the initial burst, the result codes, the loop invariant and the retransmission budget |

Multi-byte fields are read in host order, which is little-endian, as the
source's pointer casts do.

QuickerRoute.h:7 defines `DESTINATION_BEYOND_MAX_HOPS` as the code for a
destination beyond MAX_HOPS, and `recvICMPResponse` returns it when no
Echo-shaped response was accepted (QuickerRoute.cpp:355). `trace` does not
pass it on: it checks only for `ERROR_VALUE` and otherwise returns
`SUCCESS_VALUE` (QuickerRoute.cpp:446-468). `Engine.Trace` therefore never
returns `DESTINATION_BEYOND_MAX_HOPS`, and `Engine.ListenCode` gives that
code only as the listening loop's own value.

Two places where the code does more than its comments say:
- QuickerRoute.h:30 describes `isEcho` as marking the Echo probe, and
  QuickerRoute.cpp:274 calls the second Echo-shaped branch an error
  response. Yet both Echo-shaped branches set `isEcho` (QuickerRoute.cpp:264
  and 288), whatever the ICMP type.
- The "TTL expired" and "other error" branches (QuickerRoute.cpp:202-240)
  both record the router's type and code.

In each pair the two sub-branches have the same effect on the state, so
each size class is a single case of `Engine.AcceptAsWritten`.

## Model

| member | source | states |
|---|---|---|
| Checksum.ComputeIpChecksum | TraceRoute/QuickerRoute.cpp:70-85 | The word-by-word loop has three parts. It adds into a wrapping 32-bit accumulator. It adds an odd trailing byte as its raw value. It folds the carry once and complements. It computes `Checksum.IpChecksum`, the closed form: the complement of one fold of the 32-bit sum of host-order words. |
| Checksum.Fold | TraceRoute/QuickerRoute.cpp:82 | Folding the carry until none is left gives a value of at most 0xFFFF. The value is congruent to the sum modulo 0xFFFF and is zero exactly when the sum is zero. This is the one's-complement sum of RFC 1071. |
| Checksum.SingleFoldAgreement | TraceRoute/QuickerRoute.cpp:82 | The source's single fold gives the RFC 1071 checksum exactly when that fold produces no new carry, provided the sum fits in 32 bits. |
| Checksum.SingleFoldMissesCarry | TraceRoute/QuickerRoute.cpp:82 | On the bytes FF FF FF FF 01 00, the source's checksum is 0xFFFF and the RFC 1071 checksum is 0xFFFE. |
| Checksum.ChecksumCancels | TraceRoute/QuickerRoute.cpp:98-100 | Adding the RFC 1071 checksum of a sum back into that sum makes the folded sum all ones. A receiver therefore computes a zero checksum. |
| Icmp.HeaderRoundTrip | TraceRoute/QuickerRoute.cpp:93-98 | An ICMP header written anywhere in a buffer reads back unchanged through the field layout the source casts onto the buffer. |
| Icmp.ProbeBytes | TraceRoute/QuickerRoute.cpp:94-100 | The probe is 8 bytes. It has type 8 (Echo Request) and code 0. Its identifier is the low 16 bits of the process id and its sequence number is the TTL. Its checksum is the source's single-fold `ip_checksum`. For every TTL up to MAX_HOPS it verifies under RFC 1071 and under the source's checksum. |
| Icmp.ProbeVerifies | TraceRoute/QuickerRoute.cpp:98-100 | The checksum is computed with the checksum field zeroed. For every TTL up to MAX_HOPS, putting it into that field makes both the RFC 1071 checksum and the source's checksum of the header zero. |
| Icmp.ProbeChecksumMatchesSource | TraceRoute/QuickerRoute.cpp:98-100 | For every TTL up to MAX_HOPS, two things hold. The checksum the probe carries equals the RFC 1071 checksum of the zeroed probe. The source's checksum of the finished probe is zero. |
| Icmp.ProbeBeyondHopsMissesCarry | TraceRoute/QuickerRoute.cpp:98-100 | Beyond the TTLs the engine sends, the single fold can lose a carry. For process id 0xFFFF and TTL 0xFFF8 the probe carries 0xFFFF where RFC 1071 gives 0xFFFE, and the finished probe fails the RFC 1071 check. |
| Decode.IpHeaderSize | TraceRoute/QuickerRoute.cpp:187 | The outer IP header's length comes from its IHL field. It is a multiple of 4 and at most 60 bytes. |
| Decode.Classify | TraceRoute/QuickerRoute.cpp:197-247 | Every byte count falls into exactly one class: at least 56 (an error quoting a probe), 28 to 55 (Echo-shaped), or below 28. |
| Decode.DecodeResponse | TraceRoute/QuickerRoute.cpp:181-251 | Datagrams under 28 bytes are ignored. Only the 56-byte class can yield a quoted response. Only the 28..55 class can yield a direct one. |
| Decode.ErrorDatagramDecodes | TraceRoute/QuickerRoute.cpp:186-201 | For a datagram of at least 56 bytes, both conditions must hold for it to be accepted: the quoted protocol is ICMP and the quoted identifier is the low 16 bits of the process id. It then yields three things: the quoted sequence number as the hop, the outer source address as the responder, and the outer ICMP type and code. Any other such datagram is ignored. |
| Decode.ReplyDatagramDecodes | TraceRoute/QuickerRoute.cpp:245-251 | For a 28..55-byte datagram, both conditions must hold for it to be accepted: the outer protocol is ICMP and the outer identifier matches. It then yields its own sequence number, its source address, and its type and code. Any other such datagram is ignored. |
| Decode.QuotedProbeNamesItsHop | TraceRoute/QuickerRoute.cpp:97-201 | A Time Exceeded that quotes the probe sent with TTL t is attributed to hop t, whatever checksum the quoted probe carries. |
| Decode.QuotedHopUnchecked | TraceRoute/QuickerRoute.cpp:199-201 | The filter does not check the sequence number. A Time Exceeded quoting our identifier with sequence number MAX_HOPS + 1 passes and names a hop past the table's last slot. |
| Hops.InitParameters | TraceRoute/QuickerRoute.cpp:53-65 | Every slot 0..MAX_HOPS is cleared: TTL, RTT and probe count are zero, and `isEcho` and `received` are false. The responder address, type and code are not written and keep their previous values. |
| Hops.SendProbe | TraceRoute/QuickerRoute.cpp:102-119 | If `setsockopt` or `sendto` fails, the result is `ERROR_VALUE` and the table is unchanged. If the send succeeds, the result is `SUCCESS_VALUE`. The TTL's record then has exactly one more probe and its TTL set, and no other record changes. |
| Retransmit.Candidates | TraceRoute/QuickerRoute.cpp:314-317 | The hops a round visits and sends again all lie between the loop's start and `pingReplyHop`. |
| Retransmit.CandidatesExact | TraceRoute/QuickerRoute.cpp:314-317 | A hop is a candidate exactly when three things hold: it lies in 1..`pingReplyHop`-1, it has no accepted response, and it has fewer than 3 probes. |
| Retransmit.CandidatesAscending | TraceRoute/QuickerRoute.cpp:314 | The candidates are visited in strictly ascending order. |
| Retransmit.BallPark | TraceRoute/QuickerRoute.cpp:316-328 | With no neighbour answered the estimate is the 500 ms default. With one neighbour answered it is that neighbour's doubled RTT, in 32-bit arithmetic. With both answered it is at most the larger of their doubled RTTs. |
| Retransmit.BallParkVersusMean | TraceRoute/QuickerRoute.cpp:316-327 | With no 32-bit wrap, the ballpark is the mean of the neighbours' doubled RTTs (or the one present, or 500) except in one case. That case is a previous hop whose doubled RTT equals the 500 ms default while the next hop's does not. Whenever the previous hop's doubled RTT is 500 and the next hop answered, the ballpark is the next hop's doubled RTT alone (QuickerRoute.cpp:322). |
| Retransmit.BallParkReadsNeighbours | TraceRoute/QuickerRoute.cpp:319-326 | The ballpark depends only on the neighbours' received flags and RTTs. Earlier sends in the same round therefore do not change it. |
| Retransmit.MaxBallParkIsMax | TraceRoute/QuickerRoute.cpp:329 | The running maximum bounds every ballpark it visits. It equals the starting value or one of them. |
| Retransmit.TimeoutRound | TraceRoute/QuickerRoute.cpp:310-336 | A round sends again exactly the candidate hops, in ascending order. It reports a retransmission exactly when it sent one. The round is the loop `Retransmit.Sweep` over hops 1..`pingReplyHop`−1 (QuickerRoute.cpp:314-333). |
| Retransmit.TimeoutRoundResends | TraceRoute/QuickerRoute.cpp:312-334 | A round sends again exactly the hops below `pingReplyHop` that have no accepted response and fewer than 3 probes, in ascending order. Its `rtx` flag is set exactly when such a hop exists. |
| Retransmit.TimeoutRoundTable | TraceRoute/QuickerRoute.cpp:317-330 | A record changes only if its hop qualifies and its send got through. It then has one more probe and its TTL set. A failed send is not noticed. |
| Retransmit.TimeoutRoundDeadline | TraceRoute/QuickerRoute.cpp:313-335 | The next deadline is the largest ballpark of the hops sent again, computed on the table the round started from. It is 0 when nothing was sent. |
| Retransmit.NoProbesBeyondEchoHop | TraceRoute/QuickerRoute.cpp:314 | No record at or beyond `pingReplyHop` is touched by a round. |
| Engine.AcceptAsWritten | TraceRoute/QuickerRoute.cpp:199-298 | As the code has it, for a sequence number naming any slot 0..MAX_HOPS. A response passing its branch's guard spawns exactly one resolver. It writes the source address, RTT, type and code into its slot's record and marks it received, keeping the record's probe count and TTL (QuickerRoute.cpp:204-217, 256-265). An Echo-shaped one also marks the record `isEcho`, sets the Echo flag and moves `pingReplyHop` to its slot. Every other slot, the timeout and the exit flag stay as they were. Any other response changes nothing. |
| Engine.HopZeroEndsListening | TraceRoute/QuickerRoute.cpp:251-270 | As written, an Echo-shaped response naming hop 0 is accepted. It spawns a resolver and sets `pingReplyHop` to 0. The next timeout round then sends nothing, so the loop finishes, and the listening code is `SUCCESS_VALUE`. The range-checked `Engine.Accept` leaves the state unchanged. |
| Engine.HopZeroOverflowsResolvers | TraceRoute/QuickerRoute.cpp:216-265 | As written, a loop state where all MAX_HOPS hops answered with MAX_HOPS resolvers still accepts an error and then an Echo-shaped response for hop 0. That makes MAX_HOPS + 2 resolver handles, one more than `queryThreads` holds. |
| Engine.Accept | TraceRoute/QuickerRoute.cpp:199-298 | Only a first response changes state and spawns one resolver. That means either the first error for a hop without an accepted response, or the first Echo-shaped response. The hop's record then carries the responder's address, RTT, type and code, and is received. An Echo-shaped response also sets `isEcho`, the Echo flag and `pingReplyHop`. No other record changes. Hops outside 1..MAX_HOPS are ignored (see Findings). |
| Engine.EchoAfterErrorRewrites | TraceRoute/QuickerRoute.cpp:254-270 | The Echo-shaped branch checks only the Echo flag. After an error for a hop was accepted, an Echo-shaped response for the same hop overwrites its RTT and address and spawns a second resolver on the same record. |
| Engine.AcceptOnce | TraceRoute/QuickerRoute.h:29 | With the received flag guarding both branches, a record once accepted is never overwritten and stays received. A response for a probed hop with no accepted response, and for an Echo-shaped one while no Echo was accepted, is still accepted: one resolver is spawned, the record is filled in from the response, and an Echo-shaped one moves `pingReplyHop` to its hop. Any other response changes nothing. |
| Engine.AcceptOnceSpawnsPerRecord | TraceRoute/QuickerRoute.h:29 | With `AcceptOnce`, the resolvers stay exactly as many as the accepted records: one per record. |
| Engine.FirstEchoWins | TraceRoute/QuickerRoute.cpp:251-270 | As written, the first Echo-shaped response wins. A later one naming a nearer hop is ignored, that hop's record is unchanged, `pingReplyHop` stays above it, and an unanswered nearer hop with probes left is sent again in the next timeout round. |
| Engine.AcceptNearestEcho | TraceRoute/QuickerRoute.cpp:251-270 | With the Echo kept at the nearest hop, an Echo-shaped response for a probed hop leaves `pingReplyHop` at the smaller of its hop and the previous one, and that hop's record is answered. A nearer one marks its record as the Echo's and removes the mark from the old hop. If the nearer record is unanswered it is filled in from the response and one resolver is spawned; an answered one keeps its response and gets no second resolver. Every other record, the timeout and the exit flag stay as they were. Any other response is handled as `Engine.Accept` handles it. |
| Engine.NearestEchoOrderFree | TraceRoute/QuickerRoute.cpp:251-270 | With `Engine.AcceptNearestEcho`, two Echo-shaped responses give the same `pingReplyHop` in either order: the nearer of their hops. |
| Engine.NearestEchoPreservesInv | TraceRoute/QuickerRoute.h:57 | `Engine.AcceptNearestEcho` keeps the loop invariant, so resolvers stay within accepted records plus one and within the MAX_HOPS + 1 handles of `queryThreads`. |
| Engine.SecondResponseIgnored | TraceRoute/QuickerRoute.cpp:204-280 | Three kinds of later response change nothing: a second error for the same hop, a second Echo-shaped response, and an error for the hop whose Echo-shaped response was accepted. |
| Engine.ForeignOrShortIgnored | TraceRoute/QuickerRoute.cpp:197-302 | In every loop state, a datagram under 28 bytes leaves the state unchanged. So does one whose identifier, quoted or outer as its size selects, is not ours. |
| Engine.Step | TraceRoute/QuickerRoute.cpp:160-338 | A failed receive aborts, and nothing else does. A wait failure changes nothing. A timeout installs the round's table. It finishes the loop exactly when the round sent nothing, and otherwise takes the round's largest ballpark as the next timeout. |
| Engine.StepAcceptsTimeExceeded | TraceRoute/QuickerRoute.cpp:181-240 | In any loop state, a datagram of at least 56 bytes carrying an ICMP error that quotes our probe for a probed hop with no response yet is accepted for that hop. The record gets the router's address, the RTT and the message's type and code, and one resolver is spawned. |
| Engine.StepAcceptsEchoReply | TraceRoute/QuickerRoute.cpp:245-270 | While no Echo was accepted, a 28..55-byte datagram with protocol ICMP and our identifier, naming a probed hop, is accepted for that hop. The record is answered and marked as the Echo's with the sender's address, `pingReplyHop` moves to the hop, and one resolver is spawned. |
| Engine.Listen | TraceRoute/QuickerRoute.cpp:157-340 | Listening aborts only if some receive failed. Otherwise it stops with a full-size table and `pingReplyHop` at most MAX_HOPS + 1. |
| Engine.ListenCode | TraceRoute/QuickerRoute.cpp:355 | Under the loop invariant, the listening code is `SUCCESS_VALUE` exactly when the Echo-shaped response was accepted, and `DESTINATION_BEYOND_MAX_HOPS` otherwise. On success, the hop `pingReplyHop` names holds an answered record marked `isEcho` (QuickerRoute.h:29-30). |
| Engine.StepPreservesInv | TraceRoute/QuickerRoute.cpp:157-338 | Every pass of the loop keeps the invariant. Every probed hop has one to three probes and its own TTL. Slot 0 is never probed nor answered. The Echo flag agrees with `pingReplyHop`. A record is marked `isEcho` exactly when it is `pingReplyHop`'s and the Echo was accepted, so at most one is (QuickerRoute.h:30), and that record is answered. Resolvers are bounded by accepted records plus one. A finished loop has no hop left to send again. |
| Engine.StepKeepsReceived | TraceRoute/QuickerRoute.h:29 | No pass of the loop clears a `received` flag. |
| Engine.ListenKeepsReceived | TraceRoute/QuickerRoute.h:29 | Whatever the events, a record answered when listening starts is still answered when it stops. |
| Engine.ListenPreservesInv | TraceRoute/QuickerRoute.h:22-29 | Whatever the events, a stopped loop still satisfies the invariant. In particular no hop exceeds 3 probes (the documented maximum), and every TTL equals its hop. |
| Engine.SpawnCapacity | TraceRoute/QuickerRoute.h:57 | Under the invariant, at most MAX_HOPS + 1 resolver threads are spawned, which is the capacity of `queryThreads`. |
| Engine.Burst | TraceRoute/QuickerRoute.cpp:424-433 | The burst aborts exactly when some send for a TTL in 1..MAX_HOPS fails. Otherwise every hop 1..MAX_HOPS has one more probe with its own TTL and slot 0 is untouched. |
| Engine.BurstSendsOnce | TraceRoute/QuickerRoute.cpp:424-433 | From a cleared table, a burst whose every send gets through completes. Slot 0 is left unprobed and unanswered, and every hop 1..MAX_HOPS has exactly one probe carrying its own TTL. |
| Engine.BurstStartsListening | TraceRoute/QuickerRoute.cpp:411-439 | After `initParameters` and a burst whose every send gets through, listening starts from `Engine.Listening`, the loop variables as QuickerRoute.cpp:139-150 set them, in a state that satisfies the invariant, with 2·MAX_HOPS probes left in total. |
| Engine.BudgetStrict | TraceRoute/QuickerRoute.cpp:317 | One more probe to a hop with probes left strictly lowers the remaining budget. |
| Engine.StepBudget | TraceRoute/QuickerRoute.cpp:310-336 | No pass raises the remaining budget, whatever its sends do. A retransmitting round in which the send for every resent hop got through lowers it. |
| Engine.FailedResendsRepeat | TraceRoute/QuickerRoute.cpp:330 | The round ignores `sendICMPProbe`'s result. When every resend fails, the round still counts as a retransmission, the table is unchanged and the loop does not finish, so the same round comes again. |
| Engine.StepChecked | TraceRoute/QuickerRoute.h:76-78 | With resends checked, a pass aborts exactly when a receive fails or the send for a resent hop fails. Otherwise it is the ordinary pass. |
| Engine.StepCheckedProgress | TraceRoute/QuickerRoute.cpp:310-336 | With resends checked, every retransmitting pass that goes on lowers the remaining budget. |
| Engine.RetransmitRoundsBounded | TraceRoute/QuickerRoute.cpp:310-336 | When every resend gets through, the loop runs at most as many retransmitting rounds as there are probes left. After the burst that is at most 2·MAX_HOPS rounds. |
| Engine.Trace | TraceRoute/QuickerRoute.cpp:411-468 | The trace returns only `ERROR_VALUE` or `SUCCESS_VALUE`. A failed send in the burst gives `ERROR_VALUE`, and so does a failure to arm the socket event. |
| Engine.TraceFailsOnlyOnReceive | TraceRoute/QuickerRoute.cpp:444-468 | After a complete burst and an armed event, the trace fails only if a receive failed. |

## Left out

- Sockets: socket creation, `setsockopt`, `sendto`, `WSAEventSelect`, `WaitForSingleObject`, `recvfrom`, `closesocket` and `WSACleanup` are OS I/O. A send is a `SendOutcome`, arming the event is the flag `selectOk`, and each wait is an `Event`.
- Clocks: `QueryPerformanceCounter`, `clock()` and the RTT in `double`. The RTT is a given whole number of milliseconds. The `(DWORD)` truncation where the RTT is doubled is modelled.
- When a timeout fires: the model keeps the timeout a round sets (`rto`), but not the `hopTimer - clock()` arithmetic or its `DWORD` underflow. Whether a wait times out is part of the given events.
- Resolver threads: `reverseLookup_thread`, `CreateThread`, `WaitForMultipleObjects` and `CloseHandle` are concurrent DNS lookups. The model only counts spawns.
- `printResult`, the timing printout, host-name resolution in `trace`, the constructor, and `main` in TraceRoute.cpp are I/O around the engine.
- Record fields: `sendTime`, `domainName` and `char_ip` belong to the clock and the resolver.
- NetworkPackets.h is not part of this model. The standard layouts are assumed: IHL in the low nibble of byte 0, protocol at byte 9, source at bytes 12-15 (RFC 791 section 3.1), and type, code, checksum, identifier, sequence for ICMP (RFC 792). As in the code, the quoted IP header is taken to be exactly 20 bytes.
- Decode.DecodeResponse: the receive buffer is at least 96 bytes, the largest offset the code reads. Like the code, it reads fields beyond `bytesRecv` from the buffer as they are.
- Engine.Listen: the events form a finite sequence. A loop that has not finished when they run out stops there, and `Engine.Trace` then reports `StillListening` instead of a code.
- Engine.RetransmitRoundsBounded: assumes every resend gets through. A resend that keeps failing leaves its probe count unchanged, and the code then retransmits without bound (`Engine.FailedResendsRepeat`; see Findings).
- Engine.Accept: ignores a response whose sequence number is 0 or above MAX_HOPS. The code accepts 0, because slot 0 is in the table; `Engine.AcceptAsWritten` models that case and `Engine.HopZeroEndsListening` states what it does. Numbers above MAX_HOPS make the code write past the table, which has no meaning to model. The listening loop uses `Engine.Accept`.
- Checksum.SingleFoldAgreement: only for sums below 2^32. Longer buffers wrap the 32-bit accumulator, which `IpChecksum` models but the agreement does not cover.
- Engine.SpawnCapacity: relies on the range check of `Engine.Accept`. As written, responses naming hop 0 can make the 32nd handle (`Engine.HopZeroOverflowsResolvers`).

## Findings

| source | as written | input that shows it | evidently intended | confidence | as-written member | corrected member |
|---|---|---|---|---|---|---|
| TraceRoute/QuickerRoute.cpp:82 | The 32-bit sum's carry is folded back once, so a fold that creates a new carry loses it. | The words 0xFFFF, 0xFFFF, 0x0001 (bytes FF FF FF FF 01 00) give 0xFFFF; RFC 1071 gives 0xFFFE. The probe for process id 0xFFFF and TTL 0xFFF8 shows the same (`Icmp.ProbeBeyondHopsMissesCarry`). | Fold until no carry is left, as RFC 1071 section 4.1 does. The 8-byte probes never reach the case (Icmp.ProbeChecksumMatchesSource). | high; not executed | Checksum.SingleFoldMissesCarry | Checksum.ChecksumCancels |
| TraceRoute/QuickerRoute.cpp:199-201 | The sequence number read from a datagram indexes `hopInfo` without a range check. The same holds for the Echo-shaped branch at QuickerRoute.cpp:251. | A Time Exceeded of at least 56 bytes quoting protocol ICMP, our identifier and sequence number 31 writes `hopInfo[31]`, past the 31 slots. | Accept only responses for hops that were probed, 1..MAX_HOPS. | medium; not executed | Decode.QuotedHopUnchecked | Engine.Accept |
| TraceRoute/QuickerRoute.cpp:251-270 | Sequence number 0 names slot 0, which is in the table but never probed, and the response is accepted. | An Echo-shaped datagram of 28..55 bytes with our identifier and sequence number 0 sets `pingReplyHop` to 0. The next timeout resends nothing, so the loop ends early and reports success. | Ignore hops that were never probed. | medium; not executed | Engine.HopZeroEndsListening | Engine.Accept |
| TraceRoute/QuickerRoute.cpp:216-265 | Hop 0 adds resolver handles beyond the MAX_HOPS + 1 that `queryThreads` holds. | With all 30 hops answered, an error and then an Echo-shaped response for hop 0 spawn the 31st and 32nd resolvers; the 32nd is written past the array. | At most one resolver per probed hop plus the Echo's. | medium; not executed | Engine.HopZeroOverflowsResolvers | Engine.SpawnCapacity |
| TraceRoute/QuickerRoute.cpp:254-270 | The Echo-shaped branch is guarded by `echoPacketRecv` alone, not by the record's `received` flag, which QuickerRoute.h:29 says detects duplicates. | An ICMP error of at least 56 bytes for hop k is accepted, then an Echo-shaped reply with sequence number k. The reply rewrites the record's RTT and address and starts a second `reverseLookup_thread` on the same record while the first may still be writing its name. | Fill in each record once. | low; not executed | Engine.EchoAfterErrorRewrites | Engine.AcceptOnce |
| TraceRoute/QuickerRoute.cpp:251-270 | The first Echo-shaped response sets `pingReplyHop`, and later ones are ignored whatever hop they name. | The burst sends TTLs 1..30 at once, and the destination at hop k answers every TTL from k on. If the reply to TTL k+1 arrives before the reply to TTL k, `pingReplyHop` is k+1. Hop k is then sent again and printed as unanswered. | Keep the Echo at the nearest hop that sent one, filling in each record and spawning its resolver once. | low; not executed | Engine.FirstEchoWins | Engine.AcceptNearestEcho |
| TraceRoute/QuickerRoute.cpp:330 | The return value of `sendICMPProbe` is ignored in the timeout branch, although QuickerRoute.h:76-78 documents `ERROR_VALUE` and the burst treats it as fatal (QuickerRoute.cpp:426-432). | Every resend of a round fails, for example `sendto` keeps failing. Each round still sets `rtx`, nothing changes and the loop never finishes. | Fail on a failed resend as the burst does, so that every retransmitting pass uses up probes. | medium; not executed | Engine.FailedResendsRepeat | Engine.StepCheckedProgress |

The listening loop (`Engine.Step`, `Engine.Listen`) uses the range-checked
`Engine.Accept`, since the code's behaviour for numbers above MAX_HOPS is
undefined. For the last three rows it keeps the code's behaviour. An
Echo-shaped response taking over a hop's record may be intended, the order
in which replies arrive is outside the loop's control, and a failing resend
is a socket fault outside the loop's logic. `Engine.AcceptOnce`,
`Engine.AcceptNearestEcho` and `Engine.StepChecked` are the corrected
variants, with their properties proved on their own.

=== FILE: checksum.dfy ===
/** The Internet checksum: the source's single-fold version and the
    RFC 1071 (section 4.1) version with the end-around carry folded until
    none is left. */
module Checksum {
  import opened Consts

  /** Sum of the buffer read as host-order 16-bit words; an odd trailing
      byte is added as its raw value. Unbounded. */
  function WordSum(buf: seq<uint8>): nat
    decreases |buf|
  {
    if |buf| == 0 then 0
    else if |buf| == 1 then buf[0]
    else HostWord(buf[0], buf[1]) + WordSum(buf[2..])
  }

  /** One end-around-carry fold of a 32-bit accumulator: (c >> 16) + (c & 0xffff). */
  function FoldOnce(c: uint32): nat
  {
    c / 0x1_0000 + c % 0x1_0000
  }

  /** The low 16 bits of the bitwise complement, i.e. (u_short)(~x). */
  function Complement16(x: nat): uint16
  {
    0xFFFF - x % 0x1_0000
  }

  /** The checksum as the source computes it: the words are added into a
      32-bit accumulator, the carry is folded back once, and the low
      16 bits of the complement are returned. */
  function IpChecksum(buf: seq<uint8>): uint16
  {
    Complement16(FoldOnce(U32(WordSum(buf))))
  }

  /** Reducing modulo 2^32 before or after an addition is the same. */
  lemma WrapAdd(a: nat, b: nat)
    ensures U32(U32(a) + b) == U32(a + b)
  {
  }

  lemma {:induction false} ModMultiple(x: nat, k: nat)
    ensures (x + k * 0xFFFF) % 0xFFFF == x % 0xFFFF
  {
    if k > 0 {
      ModMultiple(x, k - 1);
      assert x + k * 0xFFFF == (x + (k - 1) * 0xFFFF) + 0xFFFF;
    }
  }

  /** Adding one word into the wrapping accumulator keeps the running total. */
  lemma AccumulateWord(cksum: uint32, buf: seq<uint8>, pos: nat)
    requires pos + 2 <= |buf|
    ensures U32(U32(cksum + HostWord(buf[pos], buf[pos + 1])) + WordSum(buf[pos + 2..]))
         == U32(cksum + WordSum(buf[pos..]))
  {
    var word := HostWord(buf[pos], buf[pos + 1]);
    assert buf[pos..][2..] == buf[pos + 2..];
    assert WordSum(buf[pos..]) == word + WordSum(buf[pos + 2..]);
    WrapAdd(cksum + word, WordSum(buf[pos + 2..]));
  }

  /** The odd trailing byte, if any, completes the running total. */
  lemma AccumulateTail(cksum: uint32, buf: seq<uint8>, pos: nat)
    requires pos <= |buf| <= pos + 1
    requires U32(cksum + WordSum(buf[pos..])) == U32(WordSum(buf))
    ensures (if pos < |buf| then U32(cksum + buf[pos]) else cksum) == U32(WordSum(buf))
  {
    if pos < |buf| {
      assert WordSum(buf[pos..]) == buf[pos];
    } else {
      assert WordSum(buf[pos..]) == 0;
    }
  }

  /** The loop of the source, word by word into a wrapping 32-bit
      accumulator, computes IpChecksum. */
  method ComputeIpChecksum(buf: seq<uint8>) returns (r: uint16)
    ensures r == IpChecksum(buf)
  {
    var cksum: uint32 := 0;
    var pos := 0;
    var size := |buf|;
    while size > 1
      invariant 0 <= pos <= |buf| && size == |buf| - pos
      invariant U32(cksum + WordSum(buf[pos..])) == U32(WordSum(buf))
      decreases size
    {
      AccumulateWord(cksum, buf, pos);
      cksum := U32(cksum + HostWord(buf[pos], buf[pos + 1]));
      pos := pos + 2;
      size := size - 2;
    }
    AccumulateTail(cksum, buf, pos);
    if size == 1 {
      cksum := U32(cksum + buf[pos]);
    }
    r := Complement16(FoldOnce(cksum));
  }

  /** One fold keeps the value modulo 0xFFFF and makes a large value smaller. */
  lemma FoldStep(s: nat)
    requires s >= 0x1_0000
    ensures 0 < s / 0x1_0000 + s % 0x1_0000 < s
    ensures (s / 0x1_0000 + s % 0x1_0000) % 0xFFFF == s % 0xFFFF
  {
    var a := s / 0x1_0000;
    var b := s % 0x1_0000;
    assert s == a * 0x1_0000 + b;
    assert a >= 1;
    assert s == (a + b) + a * 0xFFFF;
    ModMultiple(a + b, a);
  }

  /** The one's-complement sum of RFC 1071: fold the carry until none is left. */
  function Fold(s: nat): (f: nat)
    ensures f <= 0xFFFF
    ensures f <= s
    ensures f % 0xFFFF == s % 0xFFFF
    ensures f == 0 <==> s == 0
    decreases s
  {
    if s < 0x1_0000 then s
    else
      FoldStep(s);
      Fold(s / 0x1_0000 + s % 0x1_0000)
  }

  /** The checksum of RFC 1071 section 4.1. */
  function RfcChecksum(buf: seq<uint8>): uint16
  {
    0xFFFF - Fold(WordSum(buf))
  }

  /** The source's single fold agrees with RFC 1071 exactly when that fold
      produces no new carry (as long as the 32-bit accumulator does not wrap). */
  lemma SingleFoldAgreement(buf: seq<uint8>)
    requires WordSum(buf) < 0x1_0000_0000
    ensures IpChecksum(buf) == RfcChecksum(buf) <==> FoldOnce(WordSum(buf)) < 0x1_0000
  {
    var s := WordSum(buf);
    assert U32(s) == s;
    SingleFoldOfSum(s);
  }

  lemma SingleFoldOfSum(s: uint32)
    ensures Complement16(FoldOnce(s)) == 0xFFFF - Fold(s) <==> FoldOnce(s) < 0x1_0000
  {
    var f := FoldOnce(s);
    if s < 0x1_0000 {
      assert f == s;
    } else {
      assert Fold(s) == Fold(f);
      assert s / 0x1_0000 <= 0xFFFF;
      if f >= 0x1_0000 {
        SecondFold(f);
      }
    }
  }

  /** A value with one pending carry folds to that carry plus the low half. */
  lemma SecondFold(f: nat)
    requires 0x1_0000 <= f <= 0x1_FFFE
    ensures Fold(f) == 1 + (f - 0x1_0000)
    ensures Complement16(f) == 0xFFFF - (f - 0x1_0000)
  {
    assert f / 0x1_0000 == 1;
    assert f % 0x1_0000 == f - 0x1_0000;
  }

  /** The words 0xFFFF, 0xFFFF, 0x0001 sum to 0x1FFFF; one fold leaves the
      carry 0x10000, so the source returns 0xFFFF where RFC 1071 gives 0xFFFE. */
  lemma SingleFoldMissesCarry()
    ensures IpChecksum([0xFF, 0xFF, 0xFF, 0xFF, 0x01, 0x00]) == 0xFFFF
    ensures RfcChecksum([0xFF, 0xFF, 0xFF, 0xFF, 0x01, 0x00]) == 0xFFFE
  {
    var buf: seq<uint8> := [0xFF, 0xFF, 0xFF, 0xFF, 0x01, 0x00];
    assert buf[2..][2..] == [0x01, 0x00];
    assert WordSum([0x01, 0x00]) == 1;
    assert WordSum(buf) == 0x1_FFFF;
    assert Fold(0x1_FFFF) == Fold(0x1_0000);
    assert Fold(0x1_0000) == Fold(1);
  }

  /** Two values with the same residue modulo 0xFFFF differ by a multiple of it. */
  lemma SameResidueDifference(s: nat, f: nat)
    requires f <= s && f % 0xFFFF == s % 0xFFFF
    ensures (s - f) % 0xFFFF == 0
  {
    assert s == (s / 0xFFFF) * 0xFFFF + s % 0xFFFF;
    assert f == (f / 0xFFFF) * 0xFFFF + f % 0xFFFF;
    assert s - f == (s / 0xFFFF - f / 0xFFFF) * 0xFFFF;
  }

  /** Adding the RFC 1071 checksum of a sum back into that sum makes the
      one's-complement sum all ones, so the receiver's checksum is zero. */
  lemma ChecksumCancels(s: nat)
    ensures Fold(s + (0xFFFF - Fold(s))) == 0xFFFF
  {
    var f := Fold(s);
    SameResidueDifference(s, f);
    var k := (s - f) / 0xFFFF;
    var x := s + (0xFFFF - f);
    assert x == (k + 1) * 0xFFFF;
    ModMultiple(0, k + 1);
    var g := Fold(x);
    assert g % 0xFFFF == 0 && 0 < g <= 0xFFFF;
  }
}

=== FILE: consts.dfy ===
/** Constants of the traceroute engine, the fixed-width integer types of the
    C code it is written in, and the protocol numbers it reads off the wire. */
module Consts {

  /** Maximum number of hops probed; the hop table has MAX_HOPS + 1 slots. */
  const MAX_HOPS: nat := 30

  /** Result codes. */
  const ERROR_VALUE: int := -1
  const SUCCESS_VALUE: int := 0
  const DESTINATION_BEYOND_MAX_HOPS: int := 2

  /** Starting retransmission timeout, in milliseconds. */
  const DEFAULT_TIME_OUT: nat := 500

  /** Smallest datagram treated as an ICMP error quoting our probe. */
  const TTL_EXPIRE_PKT_SIZE: nat := 56
  /** Smallest datagram treated as a direct Echo Reply. */
  const ECHO_REPLY_PKT_SIZE: nat := 28

  /** Probes per hop: the literal bound of the retransmission guard. */
  const MAX_PROBES: nat := 3

  /** What the socket layer returns on failure. */
  const SOCKET_ERROR: int := -1

  /** Protocol numbers (RFC 790) and ICMP message types (RFC 792). */
  const IPPROTO_ICMP: nat := 1
  const ICMP_ECHO_REPLY: nat := 0
  const ICMP_ECHO_REQUEST: nat := 8
  const ICMP_TTL_EXPIRED: nat := 11

  type uint8 = x: int | 0 <= x < 0x100
  type uint16 = x: int | 0 <= x < 0x1_0000
  type uint32 = x: int | 0 <= x < 0x1_0000_0000

  /** The C cast to u_short: keep the low 16 bits. */
  function U16(x: nat): uint16 { x % 0x1_0000 }

  /** DWORD / u_long arithmetic: keep the low 32 bits. */
  function U32(x: nat): uint32 { x % 0x1_0000_0000 }

  /** A 16-bit field as it lies in memory on a little-endian host. */
  function HostWord(lo: uint8, hi: uint8): uint16 { lo + 0x100 * hi }

  function LowByte(w: uint16): uint8 { w % 0x100 }
  function HighByte(w: uint16): uint8 { w / 0x100 }

  function Max(a: uint32, b: uint32): uint32 { if a < b then b else a }

  /** Storing a 16-bit field and reading it back gives the same value. */
  lemma HostWordBytes(w: uint16)
    ensures HostWord(LowByte(w), HighByte(w)) == w
  {
  }

  /** The result codes can be told apart, and the two size thresholds are
      ordered, so the three size classes of a datagram are disjoint. */
  lemma ConstantsConsistent()
    ensures ERROR_VALUE != SUCCESS_VALUE
    ensures ERROR_VALUE != DESTINATION_BEYOND_MAX_HOPS
    ensures SUCCESS_VALUE != DESTINATION_BEYOND_MAX_HOPS
    ensures ECHO_REPLY_PKT_SIZE < TTL_EXPIRE_PKT_SIZE
    ensures DEFAULT_TIME_OUT == 500
  {
  }
}

=== FILE: decode.dfy ===
/** Demultiplexing of a received datagram (raw IPv4 + ICMP) into one of
    the two response shapes the engine understands. Field positions are
    the standard ones of RFC 791 section 3.1 and RFC 792; multi-byte fields
    are read in host order, without byte swapping. */
module Decode {
  import opened Consts
  import opened Icmp

  /** Size of an IPv4 header without options. */
  const IP_MIN_HEADER_SIZE: nat := 20
  const PROTO_OFFSET: nat := 9
  const SOURCE_OFFSET: nat := 12

  /** The largest offset the receive path reads from the buffer: a 60-byte
      outer IP header, the outer ICMP header, the quoted 20-byte IP header
      and the quoted ICMP header. */
  const MIN_BUFFER: nat := 60 + ICMP_HEADER_SIZE + IP_MIN_HEADER_SIZE + ICMP_HEADER_SIZE

  /** The three classes a received byte count falls into. */
  datatype SizeClass = TooShort | EchoSized | ExpireSized

  /** The classes are decided by the two thresholds alone; every byte count
      falls into exactly one of them. */
  function Classify(bytesRecv: int): (c: SizeClass)
    ensures c == ExpireSized <==> bytesRecv >= TTL_EXPIRE_PKT_SIZE
    ensures c == EchoSized <==> ECHO_REPLY_PKT_SIZE <= bytesRecv < TTL_EXPIRE_PKT_SIZE
    ensures c == TooShort <==> bytesRecv < ECHO_REPLY_PKT_SIZE
  {
    if bytesRecv >= TTL_EXPIRE_PKT_SIZE then ExpireSized
    else if bytesRecv >= ECHO_REPLY_PKT_SIZE then EchoSized
    else TooShort
  }

  /** The outer IP header's length: IHL, the low nibble of byte 0, in 32-bit words. */
  function IpHeaderSize(buf: seq<uint8>): (n: nat)
    requires |buf| > 0
    ensures n <= 60 && n % 4 == 0
  {
    buf[0] % 16 * 4
  }

  /** A 32-bit host-order field at a byte offset. */
  function ReadU32(buf: seq<uint8>, off: nat): uint32
    requires off + 4 <= |buf|
  {
    var b0: int := buf[off];
    var b1: int := buf[off + 1];
    var b2: int := buf[off + 2];
    var b3: int := buf[off + 3];
    b0 + 0x100 * b1 + 0x1_0000 * b2 + 0x100_0000 * b3
  }

  /** What an accepted datagram says: the hop (the probe's sequence number),
      the responder's address and the ICMP type and code it sent. */
  datatype Response = Response(hop: nat, source: uint32, icmpType: uint8, code: uint8)

  /** Ignored: too short, not ICMP or not ours. Quoted: an ICMP error of at
      least 56 bytes quoting our probe. Direct: a 28..55-byte datagram whose
      own ICMP header carries our identifier. */
  datatype Decoded = Ignored | Quoted(resp: Response) | Direct(resp: Response)

  /** Sorts a datagram by its byte count and filters it on protocol and
      process id, reading the fields where the source's pointer casts put them. */
  function DecodeResponse(buf: seq<uint8>, bytesRecv: int, pid: nat): (d: Decoded)
    requires |buf| >= MIN_BUFFER
    ensures Classify(bytesRecv) == TooShort ==> d == Ignored
    ensures d.Quoted? ==> Classify(bytesRecv) == ExpireSized
    ensures d.Direct? ==> Classify(bytesRecv) == EchoSized
  {
    var ipSize := IpHeaderSize(buf);
    var outer := ReadHeader(buf, ipSize);
    var quotedIp := ipSize + ICMP_HEADER_SIZE;
    var quoted := ReadHeader(buf, quotedIp + IP_MIN_HEADER_SIZE);
    var source := ReadU32(buf, SOURCE_OFFSET);
    match Classify(bytesRecv)
    case ExpireSized =>
      if buf[quotedIp + PROTO_OFFSET] == IPPROTO_ICMP && quoted.id == U16(pid)
      then Quoted(Response(quoted.sequence, source, outer.icmpType, outer.code))
      else Ignored
    case EchoSized =>
      if buf[PROTO_OFFSET] == IPPROTO_ICMP && outer.id == U16(pid)
      then Direct(Response(outer.sequence, source, outer.icmpType, outer.code))
      else Ignored
    case TooShort => Ignored
  }

  // ---------------------------------------------------------------------
  // Datagrams built from their fields, to state what decoding recovers

  /** The fields of an IPv4 header the decoder looks at. */
  datatype IpHeader = IpHeader(ihl: nat, proto: uint8, source: uint32)

  predicate ValidIhl(ihl: nat) { 5 <= ihl <= 15 }

  function Zeros(n: nat): (z: seq<uint8>)
    ensures |z| == n
  {
    seq(n, _ => 0)
  }

  function U32Bytes(v: uint32): (b: seq<uint8>)
    ensures |b| == 4
  {
    [v % 0x100, v / 0x100 % 0x100, v / 0x1_0000 % 0x100, v / 0x100_0000]
  }

  /** An IPv4 header of version 4 and the given length; the fields the
      decoder ignores are zero and the options are zero bytes. */
  function IpBytes(h: IpHeader): (b: seq<uint8>)
    requires ValidIhl(h.ihl)
    ensures |b| == h.ihl * 4
  {
    [0x40 + h.ihl, 0, 0, 0, 0, 0, 0, 0, 0, h.proto, 0, 0]
      + U32Bytes(h.source) + [0, 0, 0, 0] + Zeros(h.ihl * 4 - IP_MIN_HEADER_SIZE)
  }

  /** Datagram content laid into a receive buffer large enough for every read. */
  function InBuffer(content: seq<uint8>): (buf: seq<uint8>)
    requires |content| <= MIN_BUFFER
    ensures |buf| == MIN_BUFFER && buf[..|content|] == content
  {
    content + Zeros(MIN_BUFFER - |content|)
  }

  /** An ICMP error message (Time Exceeded or another) quoting the IP
      header and the first eight bytes of an original datagram. */
  function ErrorDatagram(outer: IpHeader, icmp: IcmpHeader, quotedProto: uint8, quoted: IcmpHeader): seq<uint8>
    requires ValidIhl(outer.ihl)
  {
    InBuffer(IpBytes(outer) + HeaderBytes(icmp) + IpBytes(IpHeader(5, quotedProto, 0)) + HeaderBytes(quoted))
  }

  /** A datagram carrying an ICMP message directly, as an Echo Reply does. */
  function ReplyDatagram(outer: IpHeader, icmp: IcmpHeader): seq<uint8>
    requires ValidIhl(outer.ihl)
  {
    InBuffer(IpBytes(outer) + HeaderBytes(icmp))
  }

  lemma U32RoundTrip(v: uint32, pre: seq<uint8>, post: seq<uint8>)
    ensures ReadU32(pre + U32Bytes(v) + post, |pre|) == v
  {
    var buf := pre + U32Bytes(v) + post;
    var n := |pre|;
    assert buf[n..n + 4] == U32Bytes(v);
    var q1 := v / 0x100;
    var q2 := q1 / 0x100;
    assert v / 0x1_0000 == q2;
    assert v / 0x100_0000 == q2 / 0x100;
    assert v == v % 0x100 + 0x100 * q1;
    assert q1 == q1 % 0x100 + 0x100 * q2;
    assert q2 == q2 % 0x100 + 0x100 * (q2 / 0x100);
  }

  /** The outer IP header's length, protocol and source are read back from its bytes. */
  lemma IpHeaderRoundTrip(h: IpHeader, post: seq<uint8>)
    requires ValidIhl(h.ihl)
    ensures IpHeaderSize(IpBytes(h) + post) == h.ihl * 4
    ensures (IpBytes(h) + post)[PROTO_OFFSET] == h.proto
    ensures ReadU32(IpBytes(h) + post, SOURCE_OFFSET) == h.source
  {
    var head := [0x40 + h.ihl, 0, 0, 0, 0, 0, 0, 0, 0, h.proto, 0, 0];
    var rest := [0, 0, 0, 0] + Zeros(h.ihl * 4 - IP_MIN_HEADER_SIZE) + post;
    assert IpBytes(h) + post == head + U32Bytes(h.source) + rest;
    U32RoundTrip(h.source, head, rest);
  }

  /** Decoding an ICMP error datagram of at least 56 bytes recovers the
      quoted sequence number as the hop, the outer source and the outer type
      and code, exactly when the quoted protocol is ICMP and the quoted
      identifier is ours; otherwise the datagram is ignored. */
  lemma ErrorDatagramDecodes(outer: IpHeader, icmp: IcmpHeader, quotedProto: uint8, quoted: IcmpHeader, bytesRecv: int, pid: nat)
    requires ValidIhl(outer.ihl) && bytesRecv >= TTL_EXPIRE_PKT_SIZE
    ensures DecodeResponse(ErrorDatagram(outer, icmp, quotedProto, quoted), bytesRecv, pid)
         == if quotedProto == IPPROTO_ICMP && quoted.id == U16(pid)
            then Quoted(Response(quoted.sequence, outer.source, icmp.icmpType, icmp.code))
            else Ignored
  {
    var a := IpBytes(outer);
    var b := HeaderBytes(icmp);
    var c := IpBytes(IpHeader(5, quotedProto, 0));
    var d := HeaderBytes(quoted);
    var content := a + b + c + d;
    var buf := ErrorDatagram(outer, icmp, quotedProto, quoted);
    var pad := Zeros(MIN_BUFFER - |content|);
    assert buf == a + (b + c + d + pad);
    IpHeaderRoundTrip(outer, b + c + d + pad);
    assert buf == a + b + (c + d + pad);
    HeaderRoundTrip(icmp, a, c + d + pad);
    assert buf[|a| + |b| + PROTO_OFFSET] == quotedProto by {
      assert buf == (a + b) + c + (d + pad);
      assert c[PROTO_OFFSET] == quotedProto;
    }
    assert buf == (a + b + c) + d + pad;
    HeaderRoundTrip(quoted, a + b + c, pad);
  }

  /** Decoding a 28..55-byte datagram recovers its own sequence number as
      the hop, its source and its type and code, exactly when the outer
      protocol is ICMP and the identifier is ours. */
  lemma ReplyDatagramDecodes(outer: IpHeader, icmp: IcmpHeader, bytesRecv: int, pid: nat)
    requires ValidIhl(outer.ihl)
    requires ECHO_REPLY_PKT_SIZE <= bytesRecv < TTL_EXPIRE_PKT_SIZE
    ensures DecodeResponse(ReplyDatagram(outer, icmp), bytesRecv, pid)
         == if outer.proto == IPPROTO_ICMP && icmp.id == U16(pid)
            then Direct(Response(icmp.sequence, outer.source, icmp.icmpType, icmp.code))
            else Ignored
  {
    var a := IpBytes(outer);
    var b := HeaderBytes(icmp);
    var pad := Zeros(MIN_BUFFER - |a + b|);
    var buf := ReplyDatagram(outer, icmp);
    assert buf == a + (b + pad);
    IpHeaderRoundTrip(outer, b + pad);
    assert buf == a + b + pad;
    HeaderRoundTrip(icmp, a, pad);
  }

  /** A router's Time Exceeded quoting the probe this process sent with a
      given TTL is attributed to the hop of that TTL: the sequence number
      carries the TTL back. The decoder does not read the quoted checksum,
      so this holds whatever checksum the probe carries. */
  lemma QuotedProbeNamesItsHop(outer: IpHeader, icmp: IcmpHeader, pid: nat, ttl: nat, checksum: uint16, bytesRecv: int)
    requires ValidIhl(outer.ihl) && bytesRecv >= TTL_EXPIRE_PKT_SIZE && ttl <= MAX_HOPS
    ensures DecodeResponse(ErrorDatagram(outer, icmp, IPPROTO_ICMP, UnsummedProbe(pid, ttl).(checksum := checksum)), bytesRecv, pid)
         == Quoted(Response(ttl, outer.source, icmp.icmpType, icmp.code))
  {
    var probe := UnsummedProbe(pid, ttl).(checksum := checksum);
    assert probe.id == U16(pid) && probe.sequence == ttl;
    ErrorDatagramDecodes(outer, icmp, IPPROTO_ICMP, probe, bytesRecv, pid);
  }

  /** The filter checks protocol and identifier but not the sequence
      number: a Time Exceeded quoting our identifier with sequence number
      MAX_HOPS + 1 passes and names a hop one past the table's last slot. */
  lemma QuotedHopUnchecked(outer: IpHeader, icmp: IcmpHeader, pid: nat, bytesRecv: int)
    requires ValidIhl(outer.ihl) && bytesRecv >= TTL_EXPIRE_PKT_SIZE
    ensures var d := DecodeResponse(ErrorDatagram(outer, icmp, IPPROTO_ICMP,
                                                  IcmpHeader(ICMP_ECHO_REQUEST, 0, 0, U16(pid), MAX_HOPS + 1)), bytesRecv, pid);
      d.Quoted? && d.resp.hop == MAX_HOPS + 1
  {
    ErrorDatagramDecodes(outer, icmp, IPPROTO_ICMP, IcmpHeader(ICMP_ECHO_REQUEST, 0, 0, U16(pid), MAX_HOPS + 1), bytesRecv, pid);
  }
}

=== FILE: engine.dfy ===
/** The listening loop of the engine: accepting responses, the timeout
    rounds, the initial burst of probes and the result codes, over the
    hop table. Sockets, clocks and the resolver threads are outside: a
    wait's outcome arrives as an Event, a send's as a SendOutcome, and a
    resolver thread is only counted. */
module Engine {
  import opened Consts
  import opened Hops
  import opened Decode
  import opened Retransmit

  /** The variables of the listening loop besides the table: whether the
      Echo-shaped response was accepted, the hop it came from (MAX_HOPS + 1
      until then), the number of resolver threads spawned, the current
      retransmission timeout and the loop's exit flag. */
  datatype ListenState = ListenState(
    table: Table,
    echoRecv: bool,
    pingReplyHop: nat,
    spawned: nat,
    rto: nat,
    finished: bool)

  /** The loop's state when listening begins on a table. */
  function Listening(t: Table): ListenState
  {
    ListenState(t, false, MAX_HOPS + 1, 0, DEFAULT_TIME_OUT, false)
  }

  /** A hop the engine probes. */
  predicate ProbedHop(hop: nat)
  {
    1 <= hop <= MAX_HOPS
  }

  /** The decoded response names a slot of the table, slot 0 included, or
      is ignored. The source indexes the table with the sequence number it
      reads without checking this. */
  predicate InTable(d: Decoded)
  {
    d.Ignored? || d.resp.hop <= MAX_HOPS
  }

  /** The guard the source puts on each branch: an error for a hop with no
      accepted response yet, or an Echo-shaped response while none has been
      accepted. */
  predicate NewResponse(s: ListenState, d: Decoded)
    requires WellSized(s.table) && InTable(d)
  {
    && !d.Ignored?
    && (if d.Quoted? then !s.table[d.resp.hop].received else !s.echoRecv)
  }

  /** A new response for a hop the engine probed. */
  predicate FirstResponse(s: ListenState, d: Decoded)
    requires WellSized(s.table)
  {
    !d.Ignored? && ProbedHop(d.resp.hop) && NewResponse(s, d)
  }

  /** A record after a response for it was accepted. */
  function Answered(h: Hop, r: Response, rtt: nat): Hop
  {
    h.(ip := r.source, rtt := rtt, icmpType := r.icmpType, code := r.code, received := true)
  }

  /** The receive branch as the source has it, for a response naming any
      slot of the table: a new response fills in that slot's record and
      spawns one resolver; an Echo-shaped one also marks the record as the
      Echo's and moves pingReplyHop to it. */
  function AcceptAsWritten(s: ListenState, d: Decoded, rtt: nat): (s': ListenState)
    requires WellSized(s.table) && InTable(d)
    ensures WellSized(s'.table)
    ensures !NewResponse(s, d) ==> s' == s
    ensures forall j :: 0 <= j < |s.table| && (d.Ignored? || j != d.resp.hop) ==> s'.table[j] == s.table[j]
    ensures s'.spawned == s.spawned + (if NewResponse(s, d) then 1 else 0)
    ensures NewResponse(s, d) ==>
      var h := s'.table[d.resp.hop];
      var old_h := s.table[d.resp.hop];
      && h.received && h.ip == d.resp.source && h.rtt == rtt
      && h.icmpType == d.resp.icmpType && h.code == d.resp.code
      && h.probesSent == old_h.probesSent && h.ttl == old_h.ttl
      && h.isEcho == (d.Direct? || old_h.isEcho)
    ensures s'.echoRecv == (s.echoRecv || (NewResponse(s, d) && d.Direct?))
    ensures s'.pingReplyHop == if NewResponse(s, d) && d.Direct? then d.resp.hop else s.pingReplyHop
    ensures s'.rto == s.rto && s'.finished == s.finished
  {
    if !NewResponse(s, d) then s
    else
      var hop := d.resp.hop;
      var h := Answered(s.table[hop], d.resp, rtt);
      match d
      case Quoted(_) =>
        s.(table := s.table[hop := h], spawned := s.spawned + 1)
      case Direct(_) =>
        s.(table := s.table[hop := h.(isEcho := true)], spawned := s.spawned + 1,
           echoRecv := true, pingReplyHop := hop)
  }

  /** The receive branch with the sequence number checked against the hops
      the engine probed. The first response for a hop, or the first
      Echo-shaped one, fills in that hop's record and spawns one resolver;
      anything else changes nothing. */
  function Accept(s: ListenState, d: Decoded, rtt: nat): (s': ListenState)
    requires WellSized(s.table)
    ensures WellSized(s'.table)
    ensures !FirstResponse(s, d) ==> s' == s
    ensures forall j :: 0 <= j < |s.table| && (d.Ignored? || j != d.resp.hop) ==> s'.table[j] == s.table[j]
    ensures s'.spawned == s.spawned + (if FirstResponse(s, d) then 1 else 0)
    ensures FirstResponse(s, d) ==>
      var h := s'.table[d.resp.hop];
      var old_h := s.table[d.resp.hop];
      && h.received && h.ip == d.resp.source && h.rtt == rtt
      && h.icmpType == d.resp.icmpType && h.code == d.resp.code
      && h.probesSent == old_h.probesSent && h.ttl == old_h.ttl
      && h.isEcho == (d.Direct? || old_h.isEcho)
    ensures s'.echoRecv == (s.echoRecv || (FirstResponse(s, d) && d.Direct?))
    ensures s'.pingReplyHop == if FirstResponse(s, d) && d.Direct? then d.resp.hop else s.pingReplyHop
    ensures s'.rto == s.rto && s'.finished == s.finished
  {
    if !d.Ignored? && ProbedHop(d.resp.hop) then AcceptAsWritten(s, d, rtt) else s
  }

  /** Slot 0 is in the table, so the source accepts an Echo-shaped response
      naming hop 0, which the engine never probes: it spawns a resolver and
      sets pingReplyHop to 0. The next timeout round then has no hop below
      it to send again, so the loop finishes, and the listening code is
      success. The range-checked Accept ignores the response. */
  lemma HopZeroEndsListening(s: ListenState, d: Decoded, rtt: nat, outcomes: seq<SendOutcome>)
    requires WellSized(s.table) && !s.echoRecv && |outcomes| == MAX_HOPS + 1
    requires d.Direct? && d.resp.hop == 0
    ensures var s1 := AcceptAsWritten(s, d, rtt);
      && s1.spawned == s.spawned + 1 && s1.echoRecv && s1.pingReplyHop == 0
      && !TimeoutRound(s1.table, s1.pingReplyHop, outcomes).rtx
      && ListenCode(s1) == SUCCESS_VALUE
    ensures Accept(s, d, rtt) == s
  {
    var s1 := AcceptAsWritten(s, d, rtt);
    assert NewResponse(s, d);
    assert Candidates(s1.table, 0, 1) == [];
  }

  /** As written, a loop state in which all MAX_HOPS hops answered and
      MAX_HOPS resolvers run still accepts an error and then an Echo-shaped
      response naming hop 0: the two spawns make MAX_HOPS + 2 resolver
      handles, one more than queryThreads holds. */
  lemma HopZeroOverflowsResolvers(s: ListenState, q: Decoded, d: Decoded, rtt1: nat, rtt2: nat)
    requires Inv(s) && s.spawned == MAX_HOPS && !s.echoRecv
    requires q.Quoted? && q.resp.hop == 0 && d.Direct? && d.resp.hop == 0
    ensures AcceptAsWritten(AcceptAsWritten(s, q, rtt1), d, rtt2).spawned == MAX_HOPS + 2
  {
    assert NewResponse(s, q);
    assert NewResponse(AcceptAsWritten(s, q, rtt1), d);
  }

  /** The Echo-shaped branch is guarded by the Echo flag alone, not by the
      record's received flag. An Echo-shaped response for a hop whose error
      was already accepted therefore overwrites that record's address and
      RTT and spawns a second resolver on it. */
  lemma EchoAfterErrorRewrites(s: ListenState, q: Decoded, d: Decoded, rtt1: nat, rtt2: nat)
    requires WellSized(s.table) && !s.echoRecv
    requires q.Quoted? && d.Direct? && q.resp.hop == d.resp.hop && ProbedHop(d.resp.hop)
    requires !s.table[q.resp.hop].received
    ensures var s2 := Accept(Accept(s, q, rtt1), d, rtt2);
      && s2.spawned == s.spawned + 2
      && s2.table[d.resp.hop].rtt == rtt2 && s2.table[d.resp.hop].ip == d.resp.source
  {
    var s1 := Accept(s, q, rtt1);
    assert FirstResponse(s, q);
    assert FirstResponse(s1, d);
  }

  /** The response is new for the record it names: an Echo-shaped response
      also needs a hop with no accepted response yet. */
  predicate UnansweredResponse(s: ListenState, d: Decoded)
    requires WellSized(s.table)
  {
    FirstResponse(s, d) && !s.table[d.resp.hop].received
  }

  /** Accept with every record filled in at most once: the received flag
      guards the Echo-shaped branch too, so an accepted record is never
      overwritten and a resolver never shares its record with another. */
  function AcceptOnce(s: ListenState, d: Decoded, rtt: nat): (s': ListenState)
    requires WellSized(s.table)
    ensures WellSized(s'.table)
    ensures forall j :: 0 <= j < |s.table| && s.table[j].received ==> s'.table[j] == s.table[j]
    ensures forall j :: 0 <= j < |s.table| && s.table[j].received ==> s'.table[j].received
    ensures !UnansweredResponse(s, d) ==> s' == s
    ensures UnansweredResponse(s, d) ==>
      && s'.spawned == s.spawned + 1
      && s'.table[d.resp.hop] == Answered(s.table[d.resp.hop], d.resp, rtt).(isEcho := d.Direct? || s.table[d.resp.hop].isEcho)
      && (d.Direct? ==> s'.echoRecv && s'.pingReplyHop == d.resp.hop)
  {
    if UnansweredResponse(s, d) then Accept(s, d, rtt) else s
  }

  /** With AcceptOnce, every resolver belongs to its own accepted record. */
  lemma AcceptOnceSpawnsPerRecord(s: ListenState, d: Decoded, rtt: nat)
    requires WellSized(s.table) && s.spawned == ReceivedCount(s.table)
    ensures AcceptOnce(s, d, rtt).spawned == ReceivedCount(AcceptOnce(s, d, rtt).table)
  {
    if UnansweredResponse(s, d) {
      var s' := AcceptOnce(s, d, rtt);
      var hop := d.resp.hop;
      ReceivedCountUpdate(s.table, hop, s'.table[hop]);
      assert s'.table == s.table[hop := s'.table[hop]];
    }
  }

  /** The Echo-shaped branch is guarded by the Echo flag alone, so the
      first Echo-shaped response wins. The burst sends every TTL at once,
      and the replies to TTLs at or beyond the destination can arrive out
      of order: a later one naming a nearer hop is ignored, pingReplyHop
      stays above it, and the nearer hop, if unanswered, is sent again in
      the next timeout round. */
  lemma FirstEchoWins(s: ListenState, d1: Decoded, d2: Decoded, rtt1: nat, rtt2: nat)
    requires WellSized(s.table) && s.pingReplyHop <= MAX_HOPS + 1 && !s.echoRecv
    requires d1.Direct? && d2.Direct? && ProbedHop(d1.resp.hop) && ProbedHop(d2.resp.hop)
    requires d2.resp.hop < d1.resp.hop
    ensures var s2 := Accept(Accept(s, d1, rtt1), d2, rtt2);
      && s2.pingReplyHop == d1.resp.hop
      && s2.table[d2.resp.hop] == s.table[d2.resp.hop]
      && (!s.table[d2.resp.hop].received && s.table[d2.resp.hop].probesSent < MAX_PROBES ==>
            Qualifies(s2.table, s2.pingReplyHop, d2.resp.hop))
  {
    var s1 := Accept(s, d1, rtt1);
    assert FirstResponse(s, d1);
    assert !FirstResponse(s1, d2);
  }

  /** Whether an Echo-shaped response names a nearer hop than the Echo
      accepted so far, which the destination's own nearer TTL is. */
  predicate NearerEcho(s: ListenState, d: Decoded)
  {
    d.Direct? && ProbedHop(d.resp.hop) && s.echoRecv && d.resp.hop < s.pingReplyHop
  }

  /** Accept with the Echo kept at the nearest hop that sent one: an
      Echo-shaped response naming a nearer hop than pingReplyHop takes the
      Echo over, moving the Echo mark to its record. A record already
      answered keeps its response and gets no second resolver; an
      unanswered one is filled in and gets one. Everything else is as
      Accept has it. */
  function AcceptNearestEcho(s: ListenState, d: Decoded, rtt: nat): (s': ListenState)
    requires WellSized(s.table) && s.pingReplyHop <= MAX_HOPS + 1
    requires s.echoRecv <==> s.pingReplyHop <= MAX_HOPS
    requires s.echoRecv ==> s.table[s.pingReplyHop].received
    ensures WellSized(s'.table) && s'.pingReplyHop <= MAX_HOPS + 1
    ensures s'.echoRecv <==> s'.pingReplyHop <= MAX_HOPS
    ensures s'.echoRecv ==> s'.table[s'.pingReplyHop].received
    ensures d.Direct? && ProbedHop(d.resp.hop) ==>
      && s'.echoRecv
      && s'.pingReplyHop == (if d.resp.hop < s.pingReplyHop then d.resp.hop else s.pingReplyHop)
      && s'.table[s'.pingReplyHop].received
    ensures NearerEcho(s, d) ==>
      var old_h := s.table[d.resp.hop];
      && s'.table[d.resp.hop] == (if old_h.received then old_h else Answered(old_h, d.resp, rtt)).(isEcho := true)
      && s'.table[s.pingReplyHop] == s.table[s.pingReplyHop].(isEcho := false)
      && (forall j :: 0 <= j < |s.table| && j != d.resp.hop && j != s.pingReplyHop ==> s'.table[j] == s.table[j])
      && s'.spawned == s.spawned + (if old_h.received then 0 else 1)
      && s'.rto == s.rto && s'.finished == s.finished
    ensures !NearerEcho(s, d) ==> s' == Accept(s, d, rtt)
  {
    if NearerEcho(s, d) then
      var hop := d.resp.hop;
      var t := s.table[s.pingReplyHop := s.table[s.pingReplyHop].(isEcho := false)];
      var h := if t[hop].received then t[hop] else Answered(t[hop], d.resp, rtt);
      s.(table := t[hop := h.(isEcho := true)],
         spawned := s.spawned + (if t[hop].received then 0 else 1), pingReplyHop := hop)
    else Accept(s, d, rtt)
  }

  /** AcceptNearestEcho keeps the loop invariant, resolver bound included. */
  lemma NearestEchoPreservesInv(s: ListenState, d: Decoded, rtt: nat)
    requires Inv(s)
    ensures Inv(AcceptNearestEcho(s, d, rtt))
  {
    var s' := AcceptNearestEcho(s, d, rtt);
    if NearerEcho(s, d) {
      var hop := d.resp.hop;
      var t := s.table[s.pingReplyHop := s'.table[s.pingReplyHop]];
      ReceivedCountUpdate(s.table, s.pingReplyHop, s'.table[s.pingReplyHop]);
      ReceivedCountUpdate(t, hop, s'.table[hop]);
      assert s'.table == t[hop := s'.table[hop]];
      if s.finished {
        QualifyingShrinks(s.table, s'.table, s.pingReplyHop, s'.pingReplyHop);
      }
    } else {
      AcceptPreservesInv(s, d, rtt);
    }
  }

  /** With AcceptNearestEcho, the order in which two Echo-shaped responses
      arrive no longer matters: either way the Echo ends at the nearer hop. */
  lemma NearestEchoOrderFree(s: ListenState, d1: Decoded, d2: Decoded, rtt1: nat, rtt2: nat)
    requires WellSized(s.table) && s.pingReplyHop == MAX_HOPS + 1 && !s.echoRecv
    requires d1.Direct? && d2.Direct? && ProbedHop(d1.resp.hop) && ProbedHop(d2.resp.hop)
    ensures var a := AcceptNearestEcho(AcceptNearestEcho(s, d1, rtt1), d2, rtt2);
            var b := AcceptNearestEcho(AcceptNearestEcho(s, d2, rtt2), d1, rtt1);
      && a.pingReplyHop == b.pingReplyHop
      && a.pingReplyHop == (if d1.resp.hop < d2.resp.hop then d1.resp.hop else d2.resp.hop)
  {
  }

  /** A second response for the same hop, a second Echo-shaped response, and
      an error for the hop whose Echo-shaped response was just accepted, are
      all ignored: the received flags detect duplicates. */
  lemma SecondResponseIgnored(s: ListenState, d: Decoded, d2: Decoded, rtt: nat, rtt2: nat)
    requires WellSized(s.table)
    ensures d.Quoted? && d2.Quoted? && d.resp.hop == d2.resp.hop ==>
      Accept(Accept(s, d, rtt), d2, rtt2) == Accept(s, d, rtt)
    ensures d.Direct? && ProbedHop(d.resp.hop) && d2.Direct? ==>
      Accept(Accept(s, d, rtt), d2, rtt2) == Accept(s, d, rtt)
    ensures FirstResponse(s, d) && d2.Quoted? && d.resp.hop == d2.resp.hop ==>
      Accept(Accept(s, d, rtt), d2, rtt2) == Accept(s, d, rtt)
  {
    var s1 := Accept(s, d, rtt);
    if d.Quoted? && d2.Quoted? && d.resp.hop == d2.resp.hop && ProbedHop(d.resp.hop) {
      assert s1.table[d.resp.hop].received;
    }
    if d.Direct? && d2.Direct? && ProbedHop(d.resp.hop) {
      assert s1.echoRecv;
    }
  }

  /** What one wait of the loop yields: a datagram with its byte count (or
      SOCKET_ERROR) and RTT, a timeout with the outcome of every send the
      round would make, or any other wait result. */
  datatype Event =
    | Arrived(buf: seq<uint8>, bytesRecv: int, rtt: nat)
    | TimedOut(outcomes: seq<SendOutcome>)
    | WaitFailed

  /** The receive buffer covers every offset read; there is one send
      outcome per table slot. */
  predicate EventFits(e: Event)
  {
    match e
    case Arrived(buf, _, _) => |buf| >= MIN_BUFFER
    case TimedOut(outcomes) => |outcomes| == MAX_HOPS + 1
    case WaitFailed => true
  }

  predicate EventsFit(events: seq<Event>)
  {
    forall k :: 0 <= k < |events| ==> EventFits(events[k])
  }

  /** The rest of a sequence of events fits when the whole does. */
  lemma TailFits(events: seq<Event>)
    requires |events| > 0 && EventsFit(events)
    ensures EventsFit(events[1..])
    ensures AllSent(events) ==> AllSent(events[1..])
  {
    forall k | 0 <= k < |events| - 1
      ensures events[1..][k] == events[k + 1]
    {
    }
  }

  predicate ReceiveFails(e: Event)
  {
    e.Arrived? && e.bytesRecv == SOCKET_ERROR
  }

  datatype StepResult = Aborted | Running(state: ListenState)

  /** One pass of the loop. A failed receive aborts listening. A datagram
      goes through the decoder and Accept. A timeout runs a round: when it
      sent nothing the loop finishes, otherwise the round's largest
      ballpark becomes the next timeout. Any other wait result changes
      nothing. */
  function Step(s: ListenState, e: Event, pid: nat): (r: StepResult)
    requires WellSized(s.table) && s.pingReplyHop <= MAX_HOPS + 1 && EventFits(e)
    ensures r.Aborted? <==> ReceiveFails(e)
    ensures r.Running? ==> WellSized(r.state.table) && r.state.pingReplyHop <= MAX_HOPS + 1
    ensures e.WaitFailed? ==> r == Running(s)
    ensures e.TimedOut? ==>
      var round := TimeoutRound(s.table, s.pingReplyHop, e.outcomes);
      && r.state.table == round.table
      && r.state.finished == (s.finished || !round.rtx)
      && r.state.rto == (if round.rtx then round.maxRto else s.rto)
      && r.state.spawned == s.spawned && r.state.echoRecv == s.echoRecv
      && r.state.pingReplyHop == s.pingReplyHop
  {
    match e
    case Arrived(buf, bytesRecv, rtt) =>
      if bytesRecv == SOCKET_ERROR then Aborted
      else
        var d := DecodeResponse(buf, bytesRecv, pid);
        var s' := Accept(s, d, rtt);
        assert s'.pingReplyHop <= MAX_HOPS + 1;
        Running(s')
    case TimedOut(outcomes) =>
      var round := TimeoutRound(s.table, s.pingReplyHop, outcomes);
      if !round.rtx then Running(s.(table := round.table, finished := true))
      else Running(s.(table := round.table, rto := round.maxRto))
    case WaitFailed => Running(s)
  }

  /** From datagram to record: in any loop state, a Time Exceeded of at
      least 56 bytes quoting our probe for a probed hop that has not
      answered yet is accepted for that hop, with the router's address,
      the RTT, the message's type and code, and one more resolver. */
  lemma StepAcceptsTimeExceeded(s: ListenState, outer: IpHeader, icmp: Icmp.IcmpHeader, pid: nat,
                                ttl: nat, checksum: uint16, bytesRecv: int, rtt: nat)
    requires WellSized(s.table) && s.pingReplyHop <= MAX_HOPS + 1
    requires ValidIhl(outer.ihl) && bytesRecv >= TTL_EXPIRE_PKT_SIZE
    requires ProbedHop(ttl) && !s.table[ttl].received
    ensures var buf := ErrorDatagram(outer, icmp, IPPROTO_ICMP, Icmp.UnsummedProbe(pid, ttl).(checksum := checksum));
      var r := Step(s, Arrived(buf, bytesRecv, rtt), pid);
      && r.Running?
      && r.state.table[ttl].received && r.state.table[ttl].ip == outer.source && r.state.table[ttl].rtt == rtt
      && r.state.table[ttl].icmpType == icmp.icmpType && r.state.table[ttl].code == icmp.code
      && r.state.spawned == s.spawned + 1
  {
    QuotedProbeNamesItsHop(outer, icmp, pid, ttl, checksum, bytesRecv);
  }

  /** ... and a 28..55-byte Echo Reply with our identifier, while no Echo
      was accepted, is accepted for the hop its sequence number names,
      which becomes pingReplyHop. */
  lemma StepAcceptsEchoReply(s: ListenState, outer: IpHeader, icmp: Icmp.IcmpHeader, pid: nat, bytesRecv: int, rtt: nat)
    requires WellSized(s.table) && s.pingReplyHop <= MAX_HOPS + 1 && !s.echoRecv
    requires ValidIhl(outer.ihl) && outer.proto == IPPROTO_ICMP && icmp.id == U16(pid)
    requires ECHO_REPLY_PKT_SIZE <= bytesRecv < TTL_EXPIRE_PKT_SIZE && ProbedHop(icmp.sequence)
    ensures var r := Step(s, Arrived(ReplyDatagram(outer, icmp), bytesRecv, rtt), pid);
      && r.Running?
      && r.state.echoRecv && r.state.pingReplyHop == icmp.sequence
      && r.state.table[icmp.sequence].received && r.state.table[icmp.sequence].isEcho
      && r.state.table[icmp.sequence].ip == outer.source
      && r.state.spawned == s.spawned + 1
  {
    ReplyDatagramDecodes(outer, icmp, bytesRecv, pid);
  }

  /** A timeout round that sent something again. */
  predicate Retransmits(s: ListenState, e: Event)
    requires WellSized(s.table) && s.pingReplyHop <= MAX_HOPS + 1 && EventFits(e)
  {
    e.TimedOut? && TimeoutRound(s.table, s.pingReplyHop, e.outcomes).rtx
  }

  /** How listening ends: a failed receive, or a state the loop stopped in
      (finished, or out of events) with the number of retransmitting rounds. */
  datatype ListenResult = ListenAborted | ListenStopped(state: ListenState, rounds: nat)

  /** The loop: steps through the events until it finishes or aborts. */
  function Listen(s: ListenState, events: seq<Event>, pid: nat): (r: ListenResult)
    requires WellSized(s.table) && s.pingReplyHop <= MAX_HOPS + 1 && EventsFit(events)
    ensures r.ListenAborted? ==> exists k :: 0 <= k < |events| && ReceiveFails(events[k])
    ensures r.ListenStopped? ==>
      && WellSized(r.state.table) && r.state.pingReplyHop <= MAX_HOPS + 1
      && r.rounds <= |events|
    decreases |events|
  {
    if s.finished || |events| == 0 then ListenStopped(s, 0)
    else
      match Step(s, events[0], pid)
      case Aborted => ListenAborted
      case Running(s1) =>
        match Listen(s1, events[1..], pid)
        case ListenAborted => ListenAborted
        case ListenStopped(s2, n) =>
          ListenStopped(s2, n + if Retransmits(s, events[0]) then 1 else 0)
  }

  /** The value recvICMPResponse returns once its loop has finished. With
      the invariant, it reports success exactly when the Echo-shaped
      response was accepted, and then the hop it names holds an answered
      record marked as the Echo's. */
  function ListenCode(s: ListenState): (c: int)
    ensures c == SUCCESS_VALUE || c == DESTINATION_BEYOND_MAX_HOPS
    ensures Inv(s) ==> (c == SUCCESS_VALUE <==> s.echoRecv)
    ensures Inv(s) && c == SUCCESS_VALUE ==>
      s.table[s.pingReplyHop].received && s.table[s.pingReplyHop].isEcho
  {
    if s.pingReplyHop < MAX_HOPS + 1 then SUCCESS_VALUE else DESTINATION_BEYOND_MAX_HOPS
  }

  // ---------------------------------------------------------------------
  // The invariant of the listening loop

  /** What holds of the loop's state from the end of the burst on: every
      probed hop has one to three probes and its own TTL, slot 0 is never
      probed nor answered, the Echo flag and pingReplyHop agree, the only
      record marked as the Echo's is pingReplyHop's and it is answered, every
      spawned resolver belongs to an accepted record (plus one for the Echo),
      and a finished loop has no hop left to send again. */
  predicate Inv(s: ListenState)
  {
    && WellSized(s.table)
    && s.pingReplyHop <= MAX_HOPS + 1
    && (s.echoRecv <==> s.pingReplyHop <= MAX_HOPS)
    && s.table[0].probesSent == 0 && s.table[0].ttl == 0 && !s.table[0].received
    && (forall i :: 1 <= i <= MAX_HOPS ==>
          1 <= s.table[i].probesSent <= MAX_PROBES && s.table[i].ttl == i)
    && (forall i :: 0 <= i < |s.table| ==> (s.table[i].isEcho <==> s.echoRecv && i == s.pingReplyHop))
    && (s.echoRecv ==> s.table[s.pingReplyHop].received)
    && s.spawned <= ReceivedCount(s.table) + (if s.echoRecv then 1 else 0)
    && (s.finished ==> forall j :: 0 <= j < |s.table| ==> !Qualifies(s.table, s.pingReplyHop, j))
  }

  /** Resolver handles never overflow their array of MAX_HOPS + 1. */
  lemma SpawnCapacity(s: ListenState)
    requires Inv(s)
    ensures s.spawned <= MAX_HOPS + 1
  {
    ReceivedCountWithoutSlotZero(s.table);
  }

  /** More answered records and a nearer Echo leave fewer hops to send
      again: every hop that qualifies afterwards qualified before. */
  lemma QualifyingShrinks(t: Table, u: Table, p: nat, q: nat)
    requires WellSized(t) && WellSized(u) && q <= p <= MAX_HOPS + 1
    requires forall j :: 0 <= j < |t| ==> (t[j].received ==> u[j].received) && u[j].probesSent == t[j].probesSent
    ensures forall j :: 0 <= j < |u| && Qualifies(u, q, j) ==> Qualifies(t, p, j)
  {
  }

  lemma AcceptPreservesInv(s: ListenState, d: Decoded, rtt: nat)
    requires Inv(s)
    ensures Inv(Accept(s, d, rtt))
  {
    var s' := Accept(s, d, rtt);
    if FirstResponse(s, d) {
      var hop := d.resp.hop;
      ReceivedCountUpdate(s.table, hop, s'.table[hop]);
      assert s'.table == s.table[hop := s'.table[hop]];
      if s.finished {
        QualifyingShrinks(s.table, s'.table, s.pingReplyHop, s'.pingReplyHop);
      }
    }
  }

  lemma TimeoutPreservesInv(s: ListenState, outcomes: seq<SendOutcome>)
    requires Inv(s) && !s.finished && |outcomes| == MAX_HOPS + 1
    ensures Inv(Step(s, TimedOut(outcomes), 0).state)
  {
    var round := TimeoutRound(s.table, s.pingReplyHop, outcomes);
    TimeoutRoundTable(s.table, s.pingReplyHop, outcomes);
    TimeoutRoundResends(s.table, s.pingReplyHop, outcomes);
    ReceivedCountSameFlags(s.table, round.table);
    var s' := Step(s, TimedOut(outcomes), 0).state;
    forall i | 1 <= i <= MAX_HOPS
      ensures 1 <= s'.table[i].probesSent <= MAX_PROBES && s'.table[i].ttl == i
    {
      assert s'.table[i] == round.table[i];
    }
    if s'.finished {
      assert round.table == s.table;
    }
  }

  /** Every pass of the loop keeps the invariant. */
  lemma StepPreservesInv(s: ListenState, e: Event, pid: nat)
    requires Inv(s) && !s.finished && EventFits(e)
    ensures Step(s, e, pid).Running? ==> Inv(Step(s, e, pid).state)
  {
    match e
    case Arrived(buf, bytesRecv, rtt) =>
      if bytesRecv != SOCKET_ERROR {
        AcceptPreservesInv(s, DecodeResponse(buf, bytesRecv, pid), rtt);
      }
    case TimedOut(outcomes) =>
      TimeoutPreservesInv(s, outcomes);
      assert Step(s, e, pid) == Step(s, TimedOut(outcomes), 0);
    case WaitFailed =>
  }

  /** No pass of the loop clears a received flag: a record, once answered,
      stays answered. */
  lemma StepKeepsReceived(s: ListenState, e: Event, pid: nat)
    requires WellSized(s.table) && s.pingReplyHop <= MAX_HOPS + 1 && EventFits(e)
    ensures Step(s, e, pid).Running? ==>
      forall i :: 0 <= i < |s.table| && s.table[i].received ==> Step(s, e, pid).state.table[i].received
  {
    if e.TimedOut? {
      TimeoutRoundTable(s.table, s.pingReplyHop, e.outcomes);
    }
  }

  /** ... and so neither does the whole loop. */
  lemma {:induction false} ListenKeepsReceived(s: ListenState, events: seq<Event>, pid: nat)
    requires WellSized(s.table) && s.pingReplyHop <= MAX_HOPS + 1 && EventsFit(events)
    ensures Listen(s, events, pid).ListenStopped? ==>
      forall i :: 0 <= i < |s.table| && s.table[i].received ==> Listen(s, events, pid).state.table[i].received
    decreases |events|
  {
    if !s.finished && |events| > 0 {
      StepKeepsReceived(s, events[0], pid);
      var r := Step(s, events[0], pid);
      if r.Running? {
        TailFits(events);
        ListenKeepsReceived(r.state, events[1..], pid);
      }
    }
  }

  /** However the events turn out, a loop that stops still has every probed
      hop at one to three probes, every resolver handle in range, and, if
      finished, no hop left to send again. */
  lemma {:induction false} ListenPreservesInv(s: ListenState, events: seq<Event>, pid: nat)
    requires Inv(s) && EventsFit(events)
    ensures Listen(s, events, pid).ListenStopped? ==> Inv(Listen(s, events, pid).state)
    decreases |events|
  {
    if !s.finished && |events| > 0 {
      StepPreservesInv(s, events[0], pid);
      var r := Step(s, events[0], pid);
      if r.Running? {
        TailFits(events);
        ListenPreservesInv(r.state, events[1..], pid);
      }
    }
  }

  /** A datagram shorter than an Echo Reply, and one whose identifier is not
      ours, leave the loop's state as it was. */
  lemma ForeignOrShortIgnored(s: ListenState, buf: seq<uint8>, bytesRecv: int, rtt: nat, pid: nat)
    requires WellSized(s.table) && s.pingReplyHop <= MAX_HOPS + 1 && |buf| >= MIN_BUFFER
    requires 0 <= bytesRecv < ECHO_REPLY_PKT_SIZE
          || (ECHO_REPLY_PKT_SIZE <= bytesRecv < TTL_EXPIRE_PKT_SIZE && Icmp.ReadHeader(buf, IpHeaderSize(buf)).id != U16(pid))
          || (bytesRecv >= TTL_EXPIRE_PKT_SIZE
              && Icmp.ReadHeader(buf, IpHeaderSize(buf) + Icmp.ICMP_HEADER_SIZE + IP_MIN_HEADER_SIZE).id != U16(pid))
    ensures Step(s, Arrived(buf, bytesRecv, rtt), pid) == Running(s)
  {
    assert DecodeResponse(buf, bytesRecv, pid) == Ignored;
  }

  // ---------------------------------------------------------------------
  // The initial burst and the whole trace

  datatype BurstResult = BurstAborted | BurstDone(table: Table)

  /** The burst from TTL i to MAX_HOPS: one probe per TTL in ascending
      order; the first failed send aborts. */
  function Burst(t: Table, outcomes: seq<SendOutcome>, i: nat): (r: BurstResult)
    requires WellSized(t) && |outcomes| == MAX_HOPS + 1 && 1 <= i <= MAX_HOPS + 1
    ensures r.BurstAborted? <==> exists k :: i <= k <= MAX_HOPS && outcomes[k] != Sent
    ensures r.BurstDone? ==> WellSized(r.table)
    ensures r.BurstDone? ==>
      forall j :: 0 <= j < |t| ==> r.table[j] == if i <= j then Bumped(t[j], j) else t[j]
    decreases MAX_HOPS + 1 - i
  {
    if i > MAX_HOPS then BurstDone(t)
    else
      var sent := SendProbe(t, i, outcomes[i]);
      if sent.status == ERROR_VALUE then BurstAborted
      else Burst(sent.table, outcomes, i + 1)
  }

  /** The probes still allowed for a hop. */
  function Left(h: Hop): nat
  {
    if h.probesSent >= MAX_PROBES then 0 else MAX_PROBES - h.probesSent
  }

  /** The probes still allowed for the hops from i to MAX_HOPS. */
  function BudgetFrom(t: Table, i: nat): nat
    requires WellSized(t) && 1 <= i <= MAX_HOPS + 1
    decreases MAX_HOPS + 1 - i
  {
    if i > MAX_HOPS then 0 else Left(t[i]) + BudgetFrom(t, i + 1)
  }

  function Budget(t: Table): nat
    requires WellSized(t)
  {
    BudgetFrom(t, 1)
  }

  /** Once the burst has sent one probe to every hop, two are left for each. */
  lemma {:induction false} BudgetAfterBurst(t: Table, i: nat)
    requires WellSized(t) && 1 <= i <= MAX_HOPS + 1
    requires forall j :: 1 <= j <= MAX_HOPS ==> t[j].probesSent == 1
    ensures BudgetFrom(t, i) == 2 * (MAX_HOPS + 1 - i)
    decreases MAX_HOPS + 1 - i
  {
    if i <= MAX_HOPS {
      BudgetAfterBurst(t, i + 1);
    }
  }

  /** More probes sent never leaves more budget. */
  lemma {:induction false} BudgetCompare(t: Table, u: Table, i: nat)
    requires WellSized(t) && WellSized(u) && 1 <= i <= MAX_HOPS + 1
    requires forall j :: i <= j <= MAX_HOPS ==> t[j].probesSent <= u[j].probesSent
    ensures BudgetFrom(u, i) <= BudgetFrom(t, i)
    decreases MAX_HOPS + 1 - i
  {
    if i <= MAX_HOPS {
      BudgetCompare(t, u, i + 1);
    }
  }

  /** ... and one more probe to a hop that had some left uses up budget. */
  lemma {:induction false} BudgetStrict(t: Table, u: Table, i: nat, k: nat)
    requires WellSized(t) && WellSized(u) && 1 <= i <= k <= MAX_HOPS
    requires forall j :: i <= j <= MAX_HOPS ==> t[j].probesSent <= u[j].probesSent
    requires t[k].probesSent < MAX_PROBES && t[k].probesSent < u[k].probesSent
    ensures BudgetFrom(u, i) < BudgetFrom(t, i)
    decreases k - i
  {
    if i < k {
      BudgetStrict(t, u, i + 1, k);
    } else {
      BudgetCompare(t, u, i + 1);
    }
  }

  /** Every send of every timeout round gets through. */
  predicate AllSent(events: seq<Event>)
  {
    forall k :: 0 <= k < |events| && events[k].TimedOut? ==>
      forall j :: 0 <= j < |events[k].outcomes| ==> events[k].outcomes[j] == Sent
  }

  /** A timeout round in which the send for some hop it resends fails. */
  predicate ResendFails(s: ListenState, e: Event)
    requires WellSized(s.table) && s.pingReplyHop <= MAX_HOPS + 1 && EventFits(e)
  {
    e.TimedOut? && exists j :: 0 <= j < |s.table| && Qualifies(s.table, s.pingReplyHop, j) && e.outcomes[j] != Sent
  }

  /** A pass of the loop never raises the budget, whatever its sends do,
      and a retransmitting round whose resends all get through lowers it. */
  lemma StepBudget(s: ListenState, e: Event, pid: nat)
    requires Inv(s) && !s.finished && EventFits(e) && !ReceiveFails(e)
    ensures Budget(Step(s, e, pid).state.table) <= Budget(s.table)
    ensures !ResendFails(s, e) ==>
      Budget(Step(s, e, pid).state.table) + (if Retransmits(s, e) then 1 else 0) <= Budget(s.table)
  {
    var s' := Step(s, e, pid).state;
    match e
    case Arrived(buf, bytesRecv, rtt) =>
      BudgetCompare(s.table, s'.table, 1);
    case TimedOut(outcomes) =>
      TimeoutRoundTable(s.table, s.pingReplyHop, outcomes);
      TimeoutRoundResends(s.table, s.pingReplyHop, outcomes);
      BudgetCompare(s.table, s'.table, 1);
      if Retransmits(s, e) && !ResendFails(s, e) {
        var k :| 0 <= k < |s.table| && Qualifies(s.table, s.pingReplyHop, k);
        BudgetStrict(s.table, s'.table, 1, k);
      }
    case WaitFailed =>
  }

  /** The timeout branch ignores what sendICMPProbe returns. When every
      resend of a round fails, the round still counts as a retransmission:
      the table and the budget stay as they were and the loop does not
      finish, so the next timeout runs the same round again. */
  lemma FailedResendsRepeat(s: ListenState, outcomes: seq<SendOutcome>)
    requires Inv(s) && !s.finished && |outcomes| == MAX_HOPS + 1
    requires forall j :: 0 <= j < |outcomes| ==> outcomes[j] != Sent
    requires exists j :: 0 <= j < |s.table| && Qualifies(s.table, s.pingReplyHop, j)
    ensures var r := Step(s, TimedOut(outcomes), 0);
      && r.Running? && Retransmits(s, TimedOut(outcomes))
      && r.state.table == s.table && !r.state.finished
  {
    var round := TimeoutRound(s.table, s.pingReplyHop, outcomes);
    TimeoutRoundTable(s.table, s.pingReplyHop, outcomes);
    TimeoutRoundResends(s.table, s.pingReplyHop, outcomes);
    assert round.table == s.table;
  }

  /** One pass of the loop with the resends checked: a failed resend fails
      the round, as a failed send of the burst fails the trace. */
  function StepChecked(s: ListenState, e: Event, pid: nat): (r: StepResult)
    requires WellSized(s.table) && s.pingReplyHop <= MAX_HOPS + 1 && EventFits(e)
    ensures r.Aborted? <==> ReceiveFails(e) || ResendFails(s, e)
    ensures r.Running? ==> r == Step(s, e, pid)
  {
    if ResendFails(s, e) then Aborted else Step(s, e, pid)
  }

  /** With the resends checked, every retransmitting pass that goes on
      uses up budget, so the loop cannot retransmit without bound. */
  lemma StepCheckedProgress(s: ListenState, e: Event, pid: nat)
    requires Inv(s) && !s.finished && EventFits(e)
    ensures StepChecked(s, e, pid).Running? ==>
      Budget(StepChecked(s, e, pid).state.table) + (if Retransmits(s, e) then 1 else 0) <= Budget(s.table)
  {
    if StepChecked(s, e, pid).Running? {
      StepBudget(s, e, pid);
    }
  }

  /** When every retransmitted probe gets through, the loop runs at most
      as many retransmitting rounds as there are probes left. */
  lemma {:induction false} RetransmitRoundsBounded(s: ListenState, events: seq<Event>, pid: nat)
    requires Inv(s) && EventsFit(events) && AllSent(events)
    ensures Listen(s, events, pid).ListenStopped? ==> Listen(s, events, pid).rounds <= Budget(s.table)
    decreases |events|
  {
    if !s.finished && |events| > 0 {
      var r := Step(s, events[0], pid);
      if r.Running? {
        StepPreservesInv(s, events[0], pid);
        StepBudget(s, events[0], pid);
        var rest := events[1..];
        TailFits(events);
        RetransmitRoundsBounded(r.state, rest, pid);
        var l := Listen(r.state, rest, pid);
        if l.ListenStopped? {
          assert Listen(s, events, pid).rounds == l.rounds + if Retransmits(s, events[0]) then 1 else 0;
        }
      }
    }
  }

  /** A burst whose every send gets through completes. */
  lemma BurstGetsThrough(t0: Table, outcomes: seq<SendOutcome>)
    requires WellSized(t0) && |outcomes| == MAX_HOPS + 1
    requires forall k :: 1 <= k <= MAX_HOPS ==> outcomes[k] == Sent
    ensures Burst(t0, outcomes, 1).BurstDone?
  {
    assert !(exists k :: 1 <= k <= MAX_HOPS && outcomes[k] != Sent);
  }

  /** A completed burst leaves slot 0 as it was. */
  lemma BurstKeepsSlotZero(t0: Table, outcomes: seq<SendOutcome>)
    requires WellSized(t0) && |outcomes| == MAX_HOPS + 1
    requires Burst(t0, outcomes, 1).BurstDone?
    ensures Burst(t0, outcomes, 1).table[0] == t0[0]
  {
  }

  /** A completed burst from a cleared table leaves one probe, with its
      own TTL, at every hop. */
  lemma BurstBumpsEveryHop(t0: Table, outcomes: seq<SendOutcome>)
    requires Cleared(t0) && |outcomes| == MAX_HOPS + 1
    requires Burst(t0, outcomes, 1).BurstDone?
    ensures var t := Burst(t0, outcomes, 1).table;
      forall i :: 1 <= i <= MAX_HOPS ==> t[i].probesSent == 1 && t[i].ttl == i
  {
    var t := Burst(t0, outcomes, 1).table;
    forall i | 1 <= i <= MAX_HOPS
      ensures t[i].probesSent == 1 && t[i].ttl == i
    {
      assert t[i] == Bumped(t0[i], i);
    }
  }

  /** A completed burst from a cleared table marks no record as the Echo's. */
  lemma BurstMarksNoEcho(t0: Table, outcomes: seq<SendOutcome>)
    requires Cleared(t0) && |outcomes| == MAX_HOPS + 1
    requires Burst(t0, outcomes, 1).BurstDone?
    ensures forall i :: 0 <= i < |t0| ==> !Burst(t0, outcomes, 1).table[i].isEcho
  {
    var t := Burst(t0, outcomes, 1).table;
    forall i | 0 <= i < |t0|
      ensures !t[i].isEcho
    {
      assert t[i].isEcho == t0[i].isEcho;
    }
  }

  /** The burst from a cleared table whose every send gets through leaves
      slot 0 untouched and one probe, with its own TTL, at every hop. */
  lemma BurstSendsOnce(t0: Table, outcomes: seq<SendOutcome>)
    requires Cleared(t0) && |outcomes| == MAX_HOPS + 1
    requires forall k :: 1 <= k <= MAX_HOPS ==> outcomes[k] == Sent
    ensures Burst(t0, outcomes, 1).BurstDone? && WellSized(Burst(t0, outcomes, 1).table)
    ensures var t := Burst(t0, outcomes, 1).table;
      t[0].probesSent == 0 && t[0].ttl == 0 && !t[0].received
    ensures var t := Burst(t0, outcomes, 1).table;
      forall i :: 1 <= i <= MAX_HOPS ==> t[i].probesSent == 1 && t[i].ttl == i
  {
    BurstGetsThrough(t0, outcomes);
    BurstKeepsSlotZero(t0, outcomes);
    BurstBumpsEveryHop(t0, outcomes);
  }

  /** After initParameters and the initial burst, listening starts in a
      state that satisfies the invariant, with two probes left for each of
      the MAX_HOPS hops. */
  lemma BurstStartsListening(t0: Table, outcomes: seq<SendOutcome>)
    requires Cleared(t0) && |outcomes| == MAX_HOPS + 1
    requires forall k :: 1 <= k <= MAX_HOPS ==> outcomes[k] == Sent
    ensures Inv(Listening(Burst(t0, outcomes, 1).table))
    ensures Budget(Burst(t0, outcomes, 1).table) == 2 * MAX_HOPS
  {
    BurstGetsThrough(t0, outcomes);
    var t := Burst(t0, outcomes, 1).table;
    BurstSendsOnce(t0, outcomes);
    BurstMarksNoEcho(t0, outcomes);
    BudgetAfterBurst(t, 1);
    var s := Listening(t);
    assert s.table[0].probesSent == 0 && s.table[0].ttl == 0 && !s.table[0].received;
    assert forall i :: 1 <= i <= MAX_HOPS ==> 1 <= s.table[i].probesSent <= MAX_PROBES && s.table[i].ttl == i;
    assert s.spawned == 0 && !s.finished && !s.echoRecv && s.pingReplyHop == MAX_HOPS + 1;
    assert WellSized(s.table);
    assert forall i :: 0 <= i < |s.table| ==> (s.table[i].isEcho <==> s.echoRecv && i == s.pingReplyHop);
    assert s.pingReplyHop <= MAX_HOPS + 1;
    assert (s.echoRecv <==> s.pingReplyHop <= MAX_HOPS);
    assert s.spawned <= ReceivedCount(s.table) + (if s.echoRecv then 1 else 0);
  }

  /** How a trace ends: a result code, or still listening when the events run out. */
  datatype TraceResult = Returned(code: int) | StillListening

  /** The trace after host resolution: initialise the table, send the
      burst, arm the socket event (selectOk) and listen. It returns
      ERROR_VALUE when a send of the burst, arming the event or a receive
      fails, and SUCCESS_VALUE otherwise: the listening code is not passed on. */
  function Trace(prior: Table, burst: seq<SendOutcome>, selectOk: bool, events: seq<Event>, pid: nat): (r: TraceResult)
    requires WellSized(prior) && |burst| == MAX_HOPS + 1 && EventsFit(events)
    ensures r.Returned? ==> r.code == SUCCESS_VALUE || r.code == ERROR_VALUE
    ensures (exists k :: 1 <= k <= MAX_HOPS && burst[k] != Sent) ==> r == Returned(ERROR_VALUE)
    ensures !selectOk ==> r == Returned(ERROR_VALUE)
  {
    match Burst(InitParameters(prior), burst, 1)
    case BurstAborted => Returned(ERROR_VALUE)
    case BurstDone(t) =>
      if !selectOk then Returned(ERROR_VALUE)
      else
        match Listen(Listening(t), events, pid)
        case ListenAborted => Returned(ERROR_VALUE)
        case ListenStopped(s, _) => if s.finished then Returned(SUCCESS_VALUE) else StillListening
  }

  /** Past a burst that got through and an armed event, only a failed
      receive makes the trace fail. */
  lemma TraceFailsOnlyOnReceive(prior: Table, burst: seq<SendOutcome>, events: seq<Event>, pid: nat)
    requires WellSized(prior) && |burst| == MAX_HOPS + 1 && EventsFit(events)
    requires forall k :: 1 <= k <= MAX_HOPS ==> burst[k] == Sent
    ensures Trace(prior, burst, true, events, pid) == Returned(ERROR_VALUE) ==>
      exists k :: 0 <= k < |events| && ReceiveFails(events[k])
  {
    var b := Burst(InitParameters(prior), burst, 1);
    assert !(exists k :: 1 <= k <= MAX_HOPS && burst[k] != Sent);
    assert b.BurstDone?;
    var l := Listen(Listening(b.table), events, pid);
    if l.ListenStopped? {
      assert Trace(prior, burst, true, events, pid) != Returned(ERROR_VALUE);
    }
  }
}

=== FILE: hops.dfy ===
/** The per-hop record table and the two operations that write it outside
    the receive loop: initialisation and sending one probe. */
module Hops {
  import opened Consts

  /** What the engine knows about one hop. The send timestamp, the
      resolved name and the printable address are not modelled. */
  datatype Hop = Hop(
    ttl: nat,          // the TTL of the last probe sent for this slot
    rtt: nat,          // milliseconds, truncated
    probesSent: nat,
    ip: uint32,        // address of the responder
    received: bool,    // a response was accepted for this hop
    isEcho: bool,      // this hop produced the accepted Echo-shaped response
    icmpType: int,
    code: int)

  /** The table has one slot per TTL 1..MAX_HOPS plus slot 0. */
  type Table = seq<Hop>

  predicate WellSized(t: Table)
  {
    |t| == MAX_HOPS + 1
  }

  /** Every slot reset: no probe sent, no TTL recorded, no response accepted. */
  predicate Cleared(t: Table)
  {
    && WellSized(t)
    && forall i :: 0 <= i < |t| ==>
      t[i].ttl == 0 && t[i].rtt == 0 && t[i].probesSent == 0 && !t[i].isEcho && !t[i].received
  }

  /** Resets every slot. The responder address, type and code are not
      written, so they keep whatever the slot held before. */
  function InitParameters(prior: Table): (t: Table)
    requires WellSized(prior)
    ensures Cleared(t)
    ensures forall i :: 0 <= i < |t| ==>
      t[i].ip == prior[i].ip && t[i].icmpType == prior[i].icmpType && t[i].code == prior[i].code
  {
    seq(MAX_HOPS + 1, i requires 0 <= i < MAX_HOPS + 1 =>
      prior[i].(ttl := 0, rtt := 0, isEcho := false, received := false, probesSent := 0))
  }

  /** The record of a hop after one more probe was sent with the given TTL. */
  function Bumped(h: Hop, ttl: nat): Hop
  {
    h.(probesSent := h.probesSent + 1, ttl := ttl)
  }

  /** How the two socket calls of a send turn out. */
  datatype SendOutcome = SockOptFailed | SendToFailed | Sent

  datatype SendResult = SendResult(table: Table, status: int)

  /** Sends the probe for a TTL. Only a send that gets through both socket
      calls touches the table, and then only the record of that TTL. */
  function SendProbe(t: Table, ttl: nat, outcome: SendOutcome): (r: SendResult)
    requires WellSized(t) && ttl <= MAX_HOPS
    ensures WellSized(r.table)
    ensures r.status == SUCCESS_VALUE <==> outcome == Sent
    ensures r.status != SUCCESS_VALUE ==> r.status == ERROR_VALUE && r.table == t
    ensures outcome == Sent ==>
      && r.table[ttl].probesSent == t[ttl].probesSent + 1
      && r.table[ttl].ttl == ttl
      && r.table[ttl] == t[ttl].(probesSent := r.table[ttl].probesSent, ttl := ttl)
    ensures forall i :: 0 <= i < |t| && i != ttl ==> r.table[i] == t[i]
  {
    match outcome
    case SockOptFailed => SendResult(t, ERROR_VALUE)
    case SendToFailed => SendResult(t, ERROR_VALUE)
    case Sent => SendResult(t[ttl := Bumped(t[ttl], ttl)], SUCCESS_VALUE)
  }

  /** Number of records whose response was accepted. */
  function ReceivedCount(t: seq<Hop>): (n: nat)
    ensures n <= |t|
  {
    if |t| == 0 then 0
    else (if t[0].received then 1 else 0) + ReceivedCount(t[1..])
  }

  /** The count is zero exactly when no record is received, and the whole
      length exactly when every record is. */
  lemma {:induction false} ReceivedCountExtremes(t: seq<Hop>)
    ensures ReceivedCount(t) == 0 <==> forall i :: 0 <= i < |t| ==> !t[i].received
    ensures ReceivedCount(t) == |t| <==> forall i :: 0 <= i < |t| ==> t[i].received
  {
    if |t| > 0 {
      ReceivedCountExtremes(t[1..]);
      assert forall i :: 1 <= i < |t| ==> t[i] == t[1..][i - 1];
    }
  }

  /** Marking one more record received raises the count by one; marking a
      record that already was leaves it as it was. */
  lemma {:induction false} ReceivedCountUpdate(t: seq<Hop>, k: nat, h: Hop)
    requires k < |t| && h.received
    ensures ReceivedCount(t[k := h]) == ReceivedCount(t) + (if t[k].received then 0 else 1)
  {
    if k == 0 {
      assert t[k := h][1..] == t[1..];
    } else {
      assert t[k := h][1..] == t[1..][k - 1 := h];
      ReceivedCountUpdate(t[1..], k - 1, h);
    }
  }

  /** The count depends only on the received flags. */
  lemma {:induction false} ReceivedCountSameFlags(t: seq<Hop>, u: seq<Hop>)
    requires |t| == |u|
    requires forall i :: 0 <= i < |t| ==> t[i].received == u[i].received
    ensures ReceivedCount(t) == ReceivedCount(u)
  {
    if |t| > 0 {
      ReceivedCountSameFlags(t[1..], u[1..]);
    }
  }

  /** With slot 0 never answered, at most MAX_HOPS records are received. */
  lemma ReceivedCountWithoutSlotZero(t: Table)
    requires WellSized(t) && !t[0].received
    ensures ReceivedCount(t) <= MAX_HOPS
  {
  }
}

=== FILE: icmp.dfy ===
/** The 8-byte ICMP header (RFC 792) and the Echo Request probe the
    engine sends: type 8, code 0, identifier = process id, sequence = TTL. */
module Icmp {
  import opened Consts
  import opened Checksum

  const ICMP_HEADER_SIZE: nat := 8

  /** An ICMP header; for an error message the last four bytes are the
      unused field, read here as identifier and sequence like any other. */
  datatype IcmpHeader = IcmpHeader(icmpType: uint8, code: uint8, checksum: uint16, id: uint16, sequence: uint16)

  /** The header's bytes in host order. */
  function HeaderBytes(h: IcmpHeader): (b: seq<uint8>)
    ensures |b| == ICMP_HEADER_SIZE
  {
    [h.icmpType, h.code,
     LowByte(h.checksum), HighByte(h.checksum),
     LowByte(h.id), HighByte(h.id),
     LowByte(h.sequence), HighByte(h.sequence)]
  }

  /** A 16-bit host-order field at a byte offset. */
  function ReadWord(buf: seq<uint8>, off: nat): uint16
    requires off + 2 <= |buf|
  {
    HostWord(buf[off], buf[off + 1])
  }

  /** The header laid over the buffer at a byte offset, as the source's
      pointer cast does. */
  function ReadHeader(buf: seq<uint8>, off: nat): IcmpHeader
    requires off + ICMP_HEADER_SIZE <= |buf|
  {
    IcmpHeader(buf[off], buf[off + 1], ReadWord(buf, off + 2), ReadWord(buf, off + 4), ReadWord(buf, off + 6))
  }

  /** Writing a header anywhere in a buffer and reading it back gives it unchanged. */
  lemma HeaderRoundTrip(h: IcmpHeader, pre: seq<uint8>, post: seq<uint8>)
    ensures ReadHeader(pre + HeaderBytes(h) + post, |pre|) == h
  {
    var buf := pre + HeaderBytes(h) + post;
    var n := |pre|;
    assert buf[n..n + 8] == HeaderBytes(h);
    HostWordBytes(h.checksum);
    HostWordBytes(h.id);
    HostWordBytes(h.sequence);
  }

  /** Two leading bytes contribute one word to the sum. */
  lemma WordSumCons(lo: uint8, hi: uint8, rest: seq<uint8>)
    ensures WordSum([lo, hi] + rest) == HostWord(lo, hi) + WordSum(rest)
  {
    assert ([lo, hi] + rest)[2..] == rest;
  }

  /** The sum of a header's words is the sum of its fields. */
  lemma HeaderWordSum(h: IcmpHeader)
    ensures WordSum(HeaderBytes(h)) == HostWord(h.icmpType, h.code) + h.checksum + h.id + h.sequence
  {
    var s3 := [LowByte(h.sequence), HighByte(h.sequence)];
    var s2 := [LowByte(h.id), HighByte(h.id)] + s3;
    var s1 := [LowByte(h.checksum), HighByte(h.checksum)] + s2;
    assert HeaderBytes(h) == [h.icmpType, h.code] + s1;
    WordSumCons(h.icmpType, h.code, s1);
    WordSumCons(LowByte(h.checksum), HighByte(h.checksum), s2);
    WordSumCons(LowByte(h.id), HighByte(h.id), s3);
    WordSumCons(LowByte(h.sequence), HighByte(h.sequence), []);
    assert s3 == [LowByte(h.sequence), HighByte(h.sequence)] + [];
    HostWordBytes(h.checksum);
    HostWordBytes(h.id);
    HostWordBytes(h.sequence);
  }

  /** The probe header before its checksum is filled in: the checksum
      field is zero, the identifier the low 16 bits of the process id and
      the sequence number the TTL. */
  function UnsummedProbe(pid: nat, ttl: nat): IcmpHeader
  {
    IcmpHeader(ICMP_ECHO_REQUEST, 0, 0, U16(pid), U16(ttl))
  }

  /** The probe header with its checksum computed, by the source's
      single-fold checksum, over the unsummed header. */
  function ProbeHeader(pid: nat, ttl: nat): IcmpHeader
  {
    var h := UnsummedProbe(pid, ttl);
    h.(checksum := IpChecksum(HeaderBytes(h)))
  }

  /** The bytes of the probe for a TTL: an Echo Request carrying the
      process id and the TTL. For every TTL the engine sends, its checksum
      verifies at the receiver, under RFC 1071 and under the source's own
      checksum alike. */
  function ProbeBytes(pid: nat, ttl: nat): (b: seq<uint8>)
    ensures |b| == ICMP_HEADER_SIZE
    ensures ReadHeader(b, 0).icmpType == ICMP_ECHO_REQUEST && ReadHeader(b, 0).code == 0
    ensures ReadHeader(b, 0).id == U16(pid) && ReadHeader(b, 0).sequence == U16(ttl)
    ensures ttl <= MAX_HOPS ==> RfcChecksum(b) == 0 && IpChecksum(b) == 0
  {
    var h := ProbeHeader(pid, ttl);
    HeaderRoundTrip(h, [], []);
    assert [] + HeaderBytes(h) + [] == HeaderBytes(h);
    ProbeVerifies(pid, ttl);
    HeaderBytes(h)
  }

  /** For every TTL the engine sends, the probe's checksum makes the RFC
      1071 checksum of the finished header zero. */
  lemma ProbeVerifies(pid: nat, ttl: nat)
    ensures ttl <= MAX_HOPS ==> RfcChecksum(HeaderBytes(ProbeHeader(pid, ttl))) == 0
    ensures ttl <= MAX_HOPS ==> IpChecksum(HeaderBytes(ProbeHeader(pid, ttl))) == 0
  {
    if ttl <= MAX_HOPS {
      var z := UnsummedProbe(pid, ttl);
      var h := ProbeHeader(pid, ttl);
      UnsummedProbeAgrees(pid, ttl);
      HeaderWordSum(z);
      HeaderWordSum(h);
      var s := WordSum(HeaderBytes(z));
      assert WordSum(HeaderBytes(h)) == s + (0xFFFF - Fold(s));
      ChecksumCancels(s);
      FinishedProbeAccepted(pid, ttl);
    }
  }

  /** Past the TTLs the engine sends, the single fold can leave the carry
      behind: for process id 0xFFFF and TTL 0xFFF8 the unsummed words add
      up to 0x1FFFF, the source's checksum is 0xFFFF where RFC 1071 gives
      0xFFFE, and the finished probe does not verify under RFC 1071. */
  lemma ProbeBeyondHopsMissesCarry(pid: nat, ttl: nat)
    requires pid == 0xFFFF && ttl == 0xFFF8
    ensures ProbeHeader(pid, ttl).checksum == 0xFFFF
    ensures RfcChecksum(HeaderBytes(UnsummedProbe(pid, ttl))) == 0xFFFE
    ensures RfcChecksum(HeaderBytes(ProbeHeader(pid, ttl))) != 0
  {
    var z := UnsummedProbe(pid, ttl);
    assert z.id == 0xFFFF && z.sequence == 0xFFF8 && z.checksum == 0;
    assert HostWord(z.icmpType, z.code) == 8;
    HeaderWordSum(z);
    var sz := WordSum(HeaderBytes(z));
    assert sz == 0x1_FFFF;
    assert FoldOnce(0x1_FFFF) == 0x1_0000;
    assert Fold(0x1_FFFF) == Fold(0x1_0000) == Fold(1);
    assert U32(sz) == 0x1_FFFF;
    assert Complement16(0x1_0000) == 0xFFFF;
    assert IpChecksum(HeaderBytes(z)) == 0xFFFF;
    var h := ProbeHeader(pid, ttl);
    assert h == z.(checksum := 0xFFFF);
    HeaderWordSum(h);
    var sh := WordSum(HeaderBytes(h));
    assert sh == 0x2_FFFE;
    assert Fold(0x2_FFFE) == Fold(0x1_0000);
  }

  /** Sums that are one or two times 0xFFFF fold once to all ones. */
  lemma SingleFoldOfAllOnes(t: nat)
    requires t == 0xFFFF || t == 2 * 0xFFFF
    ensures Complement16(FoldOnce(U32(t))) == 0
  {
  }

  /** For every TTL the engine probes, the checksum the probe carries is
      the RFC 1071 checksum of the unsummed header, and the source's own
      checksum accepts the finished probe. */
  lemma ProbeChecksumMatchesSource(pid: nat, ttl: nat)
    requires ttl <= MAX_HOPS
    ensures ProbeHeader(pid, ttl).checksum == RfcChecksum(HeaderBytes(UnsummedProbe(pid, ttl)))
    ensures IpChecksum(HeaderBytes(ProbeHeader(pid, ttl))) == 0
  {
    UnsummedProbeAgrees(pid, ttl);
    FinishedProbeAccepted(pid, ttl);
  }

  lemma SmallSumFoldsOnce(s: nat)
    requires s < 0x1_0000 + 0xFFFF
    ensures FoldOnce(s) < 0x1_0000
  {
    if s >= 0x1_0000 {
      assert s / 0x1_0000 == 1;
      assert s % 0x1_0000 == s - 0x1_0000;
    }
  }

  lemma UnsummedProbeAgrees(pid: nat, ttl: nat)
    requires ttl <= MAX_HOPS
    ensures IpChecksum(HeaderBytes(UnsummedProbe(pid, ttl))) == RfcChecksum(HeaderBytes(UnsummedProbe(pid, ttl)))
  {
    var z := UnsummedProbe(pid, ttl);
    HeaderWordSum(z);
    var s := WordSum(HeaderBytes(z));
    assert s == 8 + U16(pid) + ttl;
    SmallSumFoldsOnce(s);
    SingleFoldAgreement(HeaderBytes(z));
  }

  lemma SmallMultiple(t: nat)
    requires t % 0xFFFF == 0 && 0 < t < 3 * 0xFFFF
    ensures t == 0xFFFF || t == 2 * 0xFFFF
  {
    var q := t / 0xFFFF;
    assert t == q * 0xFFFF;
  }

  /** Adding the checksum back into a small sum gives one or two times 0xFFFF. */
  lemma CancelledSumSmall(s: nat)
    requires s < 2 * 0xFFFF
    ensures s + (0xFFFF - Fold(s)) == 0xFFFF || s + (0xFFFF - Fold(s)) == 2 * 0xFFFF
  {
    var t := s + (0xFFFF - Fold(s));
    ChecksumCancels(s);
    assert Fold(t) == 0xFFFF;
    assert t % 0xFFFF == 0;
    SmallMultiple(t);
  }

  /** The unsummed probe's words add up to less than two times 0xFFFF. */
  lemma UnsummedProbeSmall(pid: nat, ttl: nat)
    requires ttl <= MAX_HOPS
    ensures WordSum(HeaderBytes(UnsummedProbe(pid, ttl))) < 2 * 0xFFFF
  {
    HeaderWordSum(UnsummedProbe(pid, ttl));
  }

  /** In range, the probe is the unsummed header carrying its RFC 1071 checksum. */
  lemma ProbeHeaderSummed(pid: nat, ttl: nat)
    requires ttl <= MAX_HOPS
    ensures ProbeHeader(pid, ttl) == UnsummedProbe(pid, ttl).(checksum := RfcChecksum(HeaderBytes(UnsummedProbe(pid, ttl))))
  {
    UnsummedProbeAgrees(pid, ttl);
  }

  lemma FinishedProbeAccepted(pid: nat, ttl: nat)
    requires ttl <= MAX_HOPS
    ensures IpChecksum(HeaderBytes(ProbeHeader(pid, ttl))) == 0
  {
    var z := UnsummedProbe(pid, ttl);
    var s := WordSum(HeaderBytes(z));
    var c := RfcChecksum(HeaderBytes(z));
    UnsummedProbeSmall(pid, ttl);
    CancelledSumSmall(s);
    SummedHeaderAccepted(z, c);
    ProbeHeaderSummed(pid, ttl);
  }

  /** A header whose checksum field makes its word sum one or two times
      0xFFFF is accepted by the source's checksum. */
  lemma SummedHeaderAccepted(z: IcmpHeader, c: uint16)
    requires z.checksum == 0
    requires WordSum(HeaderBytes(z)) + c == 0xFFFF || WordSum(HeaderBytes(z)) + c == 2 * 0xFFFF
    ensures IpChecksum(HeaderBytes(z.(checksum := c))) == 0
  {
    var h := z.(checksum := c);
    HeaderWordSum(z);
    HeaderWordSum(h);
    SingleFoldOfAllOnes(WordSum(HeaderBytes(h)));
  }
}

=== FILE: retransmit.dfy ===
/** The timeout branch of the receive loop: which hops are sent again,
    the per-hop retransmission estimate ("ballpark") from the neighbours'
    round-trip times, and the next deadline. */
module Retransmit {
  import opened Consts
  import opened Hops

  /** Hop i is sent again in a round: it lies below the hop that answered
      the Echo (pingReplyHop, MAX_HOPS + 1 until one did), it has no
      accepted response and it has probes left. */
  predicate Qualifies(t: Table, pingReplyHop: nat, i: nat)
    requires WellSized(t) && pingReplyHop <= MAX_HOPS + 1
  {
    1 <= i < pingReplyHop && !t[i].received && t[i].probesSent < MAX_PROBES
  }

  /** The hops from i upwards that a round sends again, in the order the
      round visits them. */
  function Candidates(t: Table, pingReplyHop: nat, i: nat): (hops: seq<nat>)
    requires WellSized(t) && pingReplyHop <= MAX_HOPS + 1 && i >= 1
    ensures forall k :: 0 <= k < |hops| ==> i <= hops[k] < pingReplyHop
    decreases pingReplyHop - i
  {
    if i >= pingReplyHop then []
    else if !t[i].received && t[i].probesSent < MAX_PROBES then [i] + Candidates(t, pingReplyHop, i + 1)
    else Candidates(t, pingReplyHop, i + 1)
  }

  /** The candidates from i on are exactly the qualifying hops from i on. */
  lemma {:induction false} CandidatesExact(t: Table, pingReplyHop: nat, i: nat)
    requires WellSized(t) && pingReplyHop <= MAX_HOPS + 1 && i >= 1
    ensures forall j :: 0 <= j < |t| ==> (j in Candidates(t, pingReplyHop, i) <==> i <= j && Qualifies(t, pingReplyHop, j))
    decreases pingReplyHop - i
  {
    if i < pingReplyHop {
      CandidatesExact(t, pingReplyHop, i + 1);
    }
  }

  /** The candidates are strictly ascending, the order the round visits them. */
  lemma {:induction false} CandidatesAscending(t: Table, pingReplyHop: nat, i: nat)
    requires WellSized(t) && pingReplyHop <= MAX_HOPS + 1 && i >= 1
    ensures forall k, l :: 0 <= k < l < |Candidates(t, pingReplyHop, i)| ==>
      Candidates(t, pingReplyHop, i)[k] < Candidates(t, pingReplyHop, i)[l]
    decreases pingReplyHop - i
  {
    if i < pingReplyHop {
      CandidatesAscending(t, pingReplyHop, i + 1);
      var rest := Candidates(t, pingReplyHop, i + 1);
      if !t[i].received && t[i].probesSent < MAX_PROBES {
        var hops := [i] + rest;
        assert Candidates(t, pingReplyHop, i) == hops;
        forall k, l | 0 <= k < l < |hops|
          ensures hops[k] < hops[l]
        {
          assert hops[l] == rest[l - 1] && rest[l - 1] > i;
          if k > 0 {
            assert hops[k] == rest[k - 1];
          }
        }
      }
    }
  }

  /** A neighbour's estimate: (DWORD)RTT * 2 in 32-bit arithmetic. */
  function NeighbourEstimate(h: Hop): uint32
  {
    U32(U32(h.rtt) * 2)
  }

  /** Hop i has a neighbour below it in the table that answered. */
  predicate PrevAnswered(t: Table, i: nat)
    requires WellSized(t) && 1 <= i <= MAX_HOPS
  {
    i > 1 && t[i - 1].received
  }

  /** Hop i has a neighbour above it in the table that answered. */
  predicate NextAnswered(t: Table, i: nat)
    requires WellSized(t) && 1 <= i <= MAX_HOPS
  {
    i < MAX_HOPS && t[i + 1].received
  }

  /** The retransmission estimate for hop i. It starts at the default; the
      previous hop's doubled RTT replaces it when that hop answered; the
      next hop's doubled RTT then replaces a value still equal to the
      default, or is averaged with it otherwise. */
  function BallPark(t: Table, i: nat): (b: uint32)
    requires WellSized(t) && 1 <= i <= MAX_HOPS
    ensures !PrevAnswered(t, i) && !NextAnswered(t, i) ==> b == DEFAULT_TIME_OUT
    ensures PrevAnswered(t, i) && !NextAnswered(t, i) ==> b == NeighbourEstimate(t[i - 1])
    ensures !PrevAnswered(t, i) && NextAnswered(t, i) ==> b == NeighbourEstimate(t[i + 1])
    ensures PrevAnswered(t, i) && NextAnswered(t, i) ==>
      b <= Max(NeighbourEstimate(t[i - 1]), NeighbourEstimate(t[i + 1]))
  {
    var fromPrev: uint32 := if PrevAnswered(t, i) then NeighbourEstimate(t[i - 1]) else DEFAULT_TIME_OUT;
    if NextAnswered(t, i) then
      if fromPrev == DEFAULT_TIME_OUT then NeighbourEstimate(t[i + 1])
      else U32(fromPrev + NeighbourEstimate(t[i + 1])) / 2
    else fromPrev
  }

  /** The mean of the answered neighbours' doubled RTTs, or the default
      when neither answered, computed without 32-bit wrap-around. */
  function MeanEstimate(t: Table, i: nat): nat
    requires WellSized(t) && 1 <= i <= MAX_HOPS
  {
    var prev := PrevAnswered(t, i);
    var next := NextAnswered(t, i);
    if prev && next then (2 * t[i - 1].rtt + 2 * t[i + 1].rtt) / 2
    else if prev then 2 * t[i - 1].rtt
    else if next then 2 * t[i + 1].rtt
    else DEFAULT_TIME_OUT
  }

  /** Without 32-bit wrap-around, the ballpark is the mean estimate except
      in one case: the previous hop's doubled RTT happens to equal the
      default (an RTT of 250 ms), so the code takes it for "no estimate
      yet" and uses the next hop's value alone. */
  lemma BallParkVersusMean(t: Table, i: nat)
    requires WellSized(t) && 1 <= i <= MAX_HOPS
    requires forall j :: 0 <= j < |t| ==> t[j].rtt < 0x4000_0000
    ensures BallPark(t, i) == MeanEstimate(t, i)
        <==> !(i > 1 && t[i - 1].received && i < MAX_HOPS && t[i + 1].received
               && 2 * t[i - 1].rtt == DEFAULT_TIME_OUT && 2 * t[i + 1].rtt != DEFAULT_TIME_OUT)
    ensures (i > 1 && t[i - 1].received && i < MAX_HOPS && t[i + 1].received
             && 2 * t[i - 1].rtt == DEFAULT_TIME_OUT) ==> BallPark(t, i) == 2 * t[i + 1].rtt
  {
    if i > 1 {
      assert NeighbourEstimate(t[i - 1]) == 2 * t[i - 1].rtt;
    }
    if i < MAX_HOPS {
      assert NeighbourEstimate(t[i + 1]) == 2 * t[i + 1].rtt;
    }
  }

  /** The ballpark reads only the neighbours' received flags and RTTs. */
  lemma BallParkReadsNeighbours(t: Table, u: Table, i: nat)
    requires WellSized(t) && WellSized(u) && 1 <= i <= MAX_HOPS
    requires forall j :: 0 <= j < |t| ==> t[j].received == u[j].received && t[j].rtt == u[j].rtt
    ensures BallPark(t, i) == BallPark(u, i)
  {
  }

  /** The largest ballpark over some hops, starting from acc. */
  function MaxBallPark(acc: uint32, t: Table, hops: seq<nat>): (m: uint32)
    requires WellSized(t)
    requires forall k :: 0 <= k < |hops| ==> 1 <= hops[k] <= MAX_HOPS
    ensures acc <= m
    decreases |hops|
  {
    if |hops| == 0 then acc
    else MaxBallPark(Max(acc, BallPark(t, hops[0])), t, hops[1..])
  }

  /** MaxBallPark bounds every ballpark it visits and is reached by acc or by one of them. */
  lemma {:induction false} MaxBallParkIsMax(acc: uint32, t: Table, hops: seq<nat>)
    requires WellSized(t)
    requires forall k :: 0 <= k < |hops| ==> 1 <= hops[k] <= MAX_HOPS
    ensures var m := MaxBallPark(acc, t, hops);
      && (forall k :: 0 <= k < |hops| ==> BallPark(t, hops[k]) <= m)
      && (m == acc || exists k :: 0 <= k < |hops| && m == BallPark(t, hops[k]))
    decreases |hops|
  {
    if |hops| > 0 {
      var acc' := Max(acc, BallPark(t, hops[0]));
      MaxBallParkIsMax(acc', t, hops[1..]);
      var m := MaxBallPark(acc, t, hops);
      forall k | 0 <= k < |hops|
        ensures BallPark(t, hops[k]) <= m
      {
        if k > 0 {
          assert hops[k] == hops[1..][k - 1];
        }
      }
      if m != acc && m != acc' {
        var k :| 0 <= k < |hops[1..]| && m == BallPark(t, hops[1..][k]);
        assert hops[1..][k] == hops[k + 1];
      }
    }
  }

  /** The state the round's loop carries: the table, whether anything was
      sent again, the largest ballpark so far and, for the model, the hops
      visited so far that were sent again. */
  datatype Round = Round(table: Table, rtx: bool, maxRto: uint32, resent: seq<nat>)

  /** The round's loop from hop i on, as the source runs it: each
      qualifying hop's ballpark is taken and its probe sent again; a failed
      send is not noticed. */
  function Sweep(r: Round, pingReplyHop: nat, i: nat, outcomes: seq<SendOutcome>): (r': Round)
    requires WellSized(r.table) && pingReplyHop <= MAX_HOPS + 1 && i >= 1 && |outcomes| == MAX_HOPS + 1
    ensures WellSized(r'.table)
    decreases pingReplyHop - i
  {
    if i >= pingReplyHop then r
    else if !r.table[i].received && r.table[i].probesSent < MAX_PROBES then
      var ballPark := BallPark(r.table, i);
      var sent := SendProbe(r.table, i, outcomes[i]);
      Sweep(Round(sent.table, true, Max(r.maxRto, ballPark), r.resent + [i]), pingReplyHop, i + 1, outcomes)
    else
      Sweep(r, pingReplyHop, i + 1, outcomes)
  }

  /** What the loop from hop i on may assume about the table it carries:
      records from i on are still those of the round's starting table, and
      no record's received flag or RTT has changed. */
  predicate SweepReady(t: Table, r: Round, i: nat)
    requires WellSized(t) && WellSized(r.table)
  {
    && (forall j :: 0 <= j < |t| ==> r.table[j].received == t[j].received && r.table[j].rtt == t[j].rtt)
    && (forall j :: i <= j < |t| ==> r.table[j] == t[j])
  }

  /** The table after sending hop i in the loop is again ready for hop i + 1. */
  lemma SendKeepsReady(t: Table, r: Round, i: nat, outcome: SendOutcome)
    requires WellSized(t) && WellSized(r.table) && 1 <= i <= MAX_HOPS
    requires SweepReady(t, r, i)
    ensures SweepReady(t, r.(table := SendProbe(r.table, i, outcome).table), i + 1)
  {
  }

  /** The loop from hop i on sends again exactly the candidates from i on,
      in ascending order. */
  lemma {:induction false} SweepResends(t: Table, pingReplyHop: nat, i: nat, outcomes: seq<SendOutcome>, r: Round)
    requires WellSized(t) && WellSized(r.table) && pingReplyHop <= MAX_HOPS + 1 && i >= 1
    requires |outcomes| == MAX_HOPS + 1 && SweepReady(t, r, i)
    ensures Sweep(r, pingReplyHop, i, outcomes).resent == r.resent + Candidates(t, pingReplyHop, i)
    ensures Sweep(r, pingReplyHop, i, outcomes).rtx == (r.rtx || |Candidates(t, pingReplyHop, i)| > 0)
    decreases pingReplyHop - i
  {
    if i >= pingReplyHop {
      assert r.resent + [] == r.resent;
    } else if !r.table[i].received && r.table[i].probesSent < MAX_PROBES {
      var rest := Candidates(t, pingReplyHop, i + 1);
      var sent := SendProbe(r.table, i, outcomes[i]);
      var r2 := Round(sent.table, true, Max(r.maxRto, BallPark(r.table, i)), r.resent + [i]);
      SendKeepsReady(t, r, i, outcomes[i]);
      SweepResends(t, pingReplyHop, i + 1, outcomes, r2);
      assert r.resent + [i] + rest == r.resent + ([i] + rest);
    } else {
      SweepResends(t, pingReplyHop, i + 1, outcomes, r);
    }
  }

  /** The largest ballpark the loop records is the largest over the
      candidates, each computed on the table the round started from. */
  lemma {:induction false} SweepMaxRto(t: Table, pingReplyHop: nat, i: nat, outcomes: seq<SendOutcome>, r: Round)
    requires WellSized(t) && WellSized(r.table) && pingReplyHop <= MAX_HOPS + 1 && i >= 1
    requires |outcomes| == MAX_HOPS + 1 && SweepReady(t, r, i)
    ensures Sweep(r, pingReplyHop, i, outcomes).maxRto == MaxBallPark(r.maxRto, t, Candidates(t, pingReplyHop, i))
    decreases pingReplyHop - i
  {
    if i >= pingReplyHop {
    } else if !r.table[i].received && r.table[i].probesSent < MAX_PROBES {
      var cands := Candidates(t, pingReplyHop, i);
      var rest := Candidates(t, pingReplyHop, i + 1);
      assert cands[1..] == rest;
      BallParkReadsNeighbours(r.table, t, i);
      var sent := SendProbe(r.table, i, outcomes[i]);
      var r2 := Round(sent.table, true, Max(r.maxRto, BallPark(r.table, i)), r.resent + [i]);
      SendKeepsReady(t, r, i, outcomes[i]);
      SweepMaxRto(t, pingReplyHop, i + 1, outcomes, r2);
      assert Sweep(r, pingReplyHop, i, outcomes) == Sweep(r2, pingReplyHop, i + 1, outcomes);
      assert MaxBallPark(r.maxRto, t, cands) == MaxBallPark(r2.maxRto, t, rest);
    } else {
      SweepMaxRto(t, pingReplyHop, i + 1, outcomes, r);
    }
  }

  /** The loop changes a record only if the hop is a candidate and its
      send got through, and then by one more probe. */
  lemma {:induction false} SweepTable(t: Table, pingReplyHop: nat, i: nat, outcomes: seq<SendOutcome>, r: Round)
    requires WellSized(t) && WellSized(r.table) && pingReplyHop <= MAX_HOPS + 1 && i >= 1
    requires |outcomes| == MAX_HOPS + 1 && SweepReady(t, r, i)
    ensures forall j :: 0 <= j < |t| ==>
      Sweep(r, pingReplyHop, i, outcomes).table[j]
        == if j in Candidates(t, pingReplyHop, i) && outcomes[j] == Sent then Bumped(r.table[j], j) else r.table[j]
    decreases pingReplyHop - i
  {
    if i >= pingReplyHop {
    } else if !r.table[i].received && r.table[i].probesSent < MAX_PROBES {
      var cands := Candidates(t, pingReplyHop, i);
      var rest := Candidates(t, pingReplyHop, i + 1);
      var sent := SendProbe(r.table, i, outcomes[i]);
      var r2 := Round(sent.table, true, Max(r.maxRto, BallPark(r.table, i)), r.resent + [i]);
      SendKeepsReady(t, r, i, outcomes[i]);
      SweepTable(t, pingReplyHop, i + 1, outcomes, r2);
      var final := Sweep(r, pingReplyHop, i, outcomes);
      assert final == Sweep(r2, pingReplyHop, i + 1, outcomes);
      forall j | 0 <= j < |t|
        ensures final.table[j] == if j in cands && outcomes[j] == Sent then Bumped(r.table[j], j) else r.table[j]
      {
        assert j in cands <==> j == i || j in rest;
      }
    } else {
      SweepTable(t, pingReplyHop, i + 1, outcomes, r);
    }
  }

  /** One timeout round: the loop over hops 1 .. pingReplyHop - 1. */
  function TimeoutRound(t: Table, pingReplyHop: nat, outcomes: seq<SendOutcome>): (r: Round)
    requires WellSized(t) && pingReplyHop <= MAX_HOPS + 1 && |outcomes| == MAX_HOPS + 1
    ensures WellSized(r.table)
    ensures r.resent == Candidates(t, pingReplyHop, 1)
    ensures r.rtx <==> |r.resent| > 0
  {
    var start := Round(t, false, 0, []);
    SweepResends(t, pingReplyHop, 1, outcomes, start);
    assert [] + Candidates(t, pingReplyHop, 1) == Candidates(t, pingReplyHop, 1);
    Sweep(start, pingReplyHop, 1, outcomes)
  }

  /** A round sends again exactly the hops below pingReplyHop that have no
      accepted response and fewer than three probes, in ascending order,
      and it reports that it sent something exactly when such a hop exists. */
  lemma TimeoutRoundResends(t: Table, pingReplyHop: nat, outcomes: seq<SendOutcome>)
    requires WellSized(t) && pingReplyHop <= MAX_HOPS + 1 && |outcomes| == MAX_HOPS + 1
    ensures var r := TimeoutRound(t, pingReplyHop, outcomes);
      && (forall j :: 0 <= j < |t| ==> (j in r.resent <==> Qualifies(t, pingReplyHop, j)))
      && (forall k :: 0 <= k < |r.resent| ==> 1 <= r.resent[k] < pingReplyHop)
      && (forall k, l :: 0 <= k < l < |r.resent| ==> r.resent[k] < r.resent[l])
      && (r.rtx <==> exists j :: 0 <= j < |t| && Qualifies(t, pingReplyHop, j))
  {
    var r := TimeoutRound(t, pingReplyHop, outcomes);
    CandidatesExact(t, pingReplyHop, 1);
    CandidatesAscending(t, pingReplyHop, 1);
    if r.rtx {
      assert r.resent[0] in r.resent;
    }
  }

  /** A round changes a record only if its hop was sent again and the send
      got through, and then by exactly one more probe with the TTL set. */
  lemma TimeoutRoundTable(t: Table, pingReplyHop: nat, outcomes: seq<SendOutcome>)
    requires WellSized(t) && pingReplyHop <= MAX_HOPS + 1 && |outcomes| == MAX_HOPS + 1
    ensures var r := TimeoutRound(t, pingReplyHop, outcomes);
      forall j :: 0 <= j < |t| ==>
        r.table[j] == if Qualifies(t, pingReplyHop, j) && outcomes[j] == Sent then Bumped(t[j], j) else t[j]
  {
    var start := Round(t, false, 0, []);
    SweepTable(t, pingReplyHop, 1, outcomes, start);
    CandidatesExact(t, pingReplyHop, 1);
  }

  /** The next deadline of a round is the largest ballpark of the hops it
      sent again, each taken on the table the round started from, and 0
      when it sent nothing. */
  lemma TimeoutRoundDeadline(t: Table, pingReplyHop: nat, outcomes: seq<SendOutcome>)
    requires WellSized(t) && pingReplyHop <= MAX_HOPS + 1 && |outcomes| == MAX_HOPS + 1
    ensures var r := TimeoutRound(t, pingReplyHop, outcomes);
      && (forall k :: 0 <= k < |r.resent| ==> 1 <= r.resent[k] <= MAX_HOPS && BallPark(t, r.resent[k]) <= r.maxRto)
      && (|r.resent| == 0 ==> r.maxRto == 0)
      && (|r.resent| > 0 ==> exists k :: 0 <= k < |r.resent| && r.maxRto == BallPark(t, r.resent[k]))
  {
    var start := Round(t, false, 0, []);
    SweepMaxRto(t, pingReplyHop, 1, outcomes, start);
    MaxBallParkIsMax(0, t, Candidates(t, pingReplyHop, 1));
  }

  /** Once a hop has answered the Echo, no round touches a record at or
      beyond it. */
  lemma NoProbesBeyondEchoHop(t: Table, pingReplyHop: nat, outcomes: seq<SendOutcome>, j: nat)
    requires WellSized(t) && pingReplyHop <= MAX_HOPS + 1 && |outcomes| == MAX_HOPS + 1
    requires pingReplyHop <= j < |t|
    ensures TimeoutRound(t, pingReplyHop, outcomes).table[j] == t[j]
  {
    TimeoutRoundTable(t, pingReplyHop, outcomes);
  }
}
